=== FILE: README.md ===
# MindMap — a Dafny model of the mind-map store and its list pages

MindMap is a React application. A topic is sent to a language model, which
answers with main concepts and sub-concepts. The answer is laid out as a map of
labelled boxes on a canvas. A box can then be expanded with more suggestions,
deleted together with everything below it, dragged, and exported as a PNG.
Around the canvas sit three smaller pages: a flow-chart workspace, a library of
saved maps, and a dashboard of recent maps.

This project models the logic of those components as pure functions over
immutable values and proves what they do:

- `store.dfy`: the `nodes` object of the generator. It is the key order, an
  explicit sequence, plus a map from upper-cased labels to
  `{id, x, y, color, parent, children}` records. The root is the first key.
  Writing a key keeps its place and adding a key appends it.
- `deletion.dfy`: `deleteNode`. The root is guarded. Otherwise the node is
  detached from its parent, then the recursive walk over `children` runs. The
  proofs show the walk removes exactly the subtree of the key. A ghost `rank`
  stands for the acyclicity the walk needs in order to stop.
- `extraction.dfy`: the greedy `[\s\S]*` regular-expression match that cuts the
  JSON fragment out of the model's answer.
- `generation.dfy`: `generateMindMap`. It builds the root, the main concepts and
  the sub-concepts, with their clamps, colours and parent/child links.
- `expansion.dfy`: `expandNodeWithAI`. The merge is modelled **as written**:
  the parent record is read once before the loop and rewritten on every turn,
  so only the last fresh key ends up in the parent's `children`.
- `interaction.dfy`: the generator's component state. It covers generation,
  submit, expansion, drag, click, shift-click delete and the side panel's
  buttons.
- `render.dfy`: the connection lines, plus the box sizes, fill colours, labels
  and file name of the export.
- `workspace.dfy`: the flow-chart workspace's delete and two-idea expansion.
- `library.dfy`: search, toggle-selection, bulk delete and the confirm text of
  the saved-maps library.
- `dashboard.dfy`: the relative-time text, the statistics, card creation,
  deletion and title truncation of the dashboard.
- `text.dfy`, `seqs.dfy`, `geometry.dfy`, `base.dfy`: the string, sequence,
  clamp and result helpers these rely on.

The `src/Components` copies of `MyMindMaps.jsx` and `Dashboard.jsx` have the same
logic as the `client/src/Components` copies. Each operation is modelled once.
The rows below cite the client copy; the matching src lines are:

- filter: src/Components/MyMindMaps.jsx:45-49
- toggle: src/Components/MyMindMaps.jsx:51-54
- delete: src/Components/MyMindMaps.jsx:56-60
- confirm text: src/Components/MyMindMaps.jsx:300
- statistics: src/Components/Dashboard.jsx:61-66
- time difference: src/Components/Dashboard.jsx:68-77
- colours: src/Components/Dashboard.jsx:79-82
- excerpt: src/Components/Dashboard.jsx:84-88
- submit: src/Components/Dashboard.jsx:98-123
- delete: src/Components/Dashboard.jsx:125-128
- title: src/Components/Dashboard.jsx:255

In three places the code does less than one would expect, and the model follows the code:

- An expansion lists only the last new key in the parent's `children`, not all of them.
- A new dashboard card has 10 to 39 nodes, although a code comment says 10-40.
- The workspace's delete removes the selected node and its edges only. Nodes below it stay, cut off.

Values that come from outside are parameters of the model:

- the model's reply, as `Reply`;
- `JSON.parse` together with the shape reads, as a `parse` function returning a `Result`;
- `Math.cos`/`Math.sin` of an angle, as `trig`;
- `Math.random()`, as a real in [0, 1) or an index `pick`;
- `Date.now()`, as `now`: `now(i)` is its value on the `i`-th turn of the expansion loop;
- whether the API key is set, as `keySet`.

## Model

| member | source | states |
|---|---|---|
| Store.PickColor | client/src/Components/MindMapGenerator.jsx:57-64 | The random colour is always one of the twelve palette classes. |
| Store.Put | client/src/Components/MindMapGenerator.jsx:260-266 | An object write: an existing key keeps its place in the key order, a new key goes last, and the order stays duplicate-free. |
| Store.PruneTwice | client/src/Components/MindMapGenerator.jsx:300-311 | Deleting two key sets one after the other equals deleting their union once. |
| Deletion.DeleteNode | client/src/Components/MindMapGenerator.jsx:284-311 | The root is left alone. A missing key is an error, since the code throws reading it. Otherwise exactly the key and everything reachable through `children` disappear, order is kept for the rest, only the parent's record changes, and the parent loses the key from its `children`. |
| Deletion.DeleteChildrenSpec | client/src/Components/MindMapGenerator.jsx:300-310 | `deleteChildren(k)` deletes exactly the descendants of `k`, and nothing else. |
| Deletion.DeleteEachSpec | client/src/Components/MindMapGenerator.jsx:300-310 | The `forEach` over a captured child list deletes exactly the union of the listed subtrees, even though earlier turns delete nodes later turns meet again. |
| Deletion.DetachKeepsSubtree | client/src/Components/MindMapGenerator.jsx:291-297 | Removing the key from its parent's `children` before the walk does not change which keys the walk reaches. |
| Deletion.DeleteNodeIsPrune | client/src/Components/MindMapGenerator.jsx:300-311 | After detaching, the walk plus the final `delete` is the same as deleting the key's subtree as one set. |
| Deletion.DeleteNodeCount | client/src/Components/MindMapGenerator.jsx:287-311 | A non-root delete succeeds, and the node count drops by exactly the number of present subtree keys. |
| Extraction.ExtractFragment | client/src/Components/MindMapGenerator.jsx:238-241 | There is a match exactly when an opening bracket comes before a closing one. The match runs from the first opening bracket to the last closing bracket. The same rule with braces serves generation (:125-128). |
| Generation.UpperAll | client/src/Components/MindMapGenerator.jsx:141 | Each concept is upper-cased in place, and the list length is unchanged. |
| Generation.MainNode | client/src/Components/MindMapGenerator.jsx:145-159 | A main concept's record lies in [100,700]×[100,500], whatever the trigonometry gives. It has the topic as parent, its upper-cased sub-concepts as children, and a palette colour. |
| Generation.SubNode | client/src/Components/MindMapGenerator.jsx:162-176 | A sub-concept's record lies in [50,850]×[50,550]. It is a grey leaf whose parent is its main concept. |
| Generation.CallModel | client/src/Components/MindMapGenerator.jsx:86-95 | A reply yields its text. A failed request or a non-OK status yields the message the callers show, with the `GEMINI API ERROR: ` prefix and the status number. |
| Generation.Build | client/src/Components/MindMapGenerator.jsx:131-179 | The new nodes object is duplicate-free and rooted at the topic key. It has a key for the topic and for every main and sub-concept and no other, and every node lies in [50,850]×[50,550]. |
| Generation.Generate | client/src/Components/MindMapGenerator.jsx:122-179 | A reply without a `{…}` fragment gives "INVALID API RESPONSE FORMAT" and request failures pass their message through. The result succeeds exactly when the reply has a fragment that parses, and then it is the built map rooted at the upper-cased topic. |
| Generation.BuildMainsOrder | client/src/Components/MindMapGenerator.jsx:145-179 | With distinct keys, the main-concept loop appends each main key followed by its sub-concept keys, in answer order. |
| Generation.BuildExact | client/src/Components/MindMapGenerator.jsx:131-179 | With distinct keys, the key order is topic, then each main concept followed by its sub-concepts. Every record is exactly the root, main or sub record for its position. |
| Generation.GeneratedTree | client/src/Components/MindMapGenerator.jsx:136-177 | With distinct keys the map is a tree under the topic. Every parent link is matched by the parent's child list, only the topic has no parent, and there is one node per concept. |
| Generation.GeneratedLayout | client/src/Components/MindMapGenerator.jsx:145-177 | With distinct keys, every main concept lies in the inner box with a palette colour under the topic. Every sub-concept is a grey leaf under its own main concept. |
| Expansion.FreshOf | client/src/Components/MindMapGenerator.jsx:250-253 | A suggested key gets a node exactly when it is not yet in the map. |
| Expansion.FreshOfNoDups | client/src/Components/MindMapGenerator.jsx:250-253 | A key suggested twice (after upper-casing) is added once, because the duplicate check sees earlier additions of the same batch. |
| Expansion.ExpNode | client/src/Components/MindMapGenerator.jsx:255-266 | Every added record is a childless node whose parent is the expanded key and which lies in [50,850]×[50,550]. |
| Expansion.ExpStep | client/src/Components/MindMapGenerator.jsx:260-272 | One loop turn appends the new key with a leaf record. It rewrites the parent as the pre-loop record plus this key only, and changes nothing else. |
| Expansion.ExpandLoop | client/src/Components/MindMapGenerator.jsx:250-273 | The loop fails exactly when the parent is missing and some suggestion is fresh, with the error a JavaScript read of `undefined.x` raises. On success the root stays first, only the parent record changes among the old keys, and the new keys are exactly the fresh suggestions, all leaves under the parent. |
| Expansion.Merge | client/src/Components/MindMapGenerator.jsx:243-273 | The same facts for the whole parsed answer, suggestions upper-cased. |
| Expansion.Expand | client/src/Components/MindMapGenerator.jsx:230-274 | A reply without a `[…]` fragment gives "INVALID EXPANSION RESPONSE" and request failures pass their message through. The result succeeds exactly when the fragment parses and the merge succeeds. |
| Expansion.ExpandLoopExact | client/src/Components/MindMapGenerator.jsx:244-273 | For a present parent the key order gains exactly the fresh keys in suggestion order. The parent keeps its record when there are none, and otherwise gets its old children plus only the last fresh key. |
| Expansion.MergeExact | client/src/Components/MindMapGenerator.jsx:244-273 | Expanding a present node always succeeds. It appends exactly the fresh keys, each once and never the node itself, and leaves the map unchanged when there are none. Otherwise the parent's children become its old list plus the last fresh key. |
| Expansion.ExpandListsOnlyLast | client/src/Components/MindMapGenerator.jsx:244-272 | With two or more fresh keys, every fresh key but the last points to the parent without being listed in its children. The parent/child links are then no longer mirrored. |
| Interaction.InitialValid | client/src/Components/MindMapGenerator.jsx:7-53 | The initial map has a duplicate-free key order rooted at MINDSCAPE. Nothing is dragged, selected or expanding. |
| Interaction.InitialLinked | client/src/Components/MindMapGenerator.jsx:7-36 | In the initial map every parent link is mirrored in the parent's children, and only MINDSCAPE has no parent. |
| Interaction.InitialRanked | client/src/Components/MindMapGenerator.jsx:7-36 | The initial map's children lists are acyclic, so deletion starts from a map it can walk. |
| Interaction.GenerateMap | client/src/Components/MindMapGenerator.jsx:99-188 | Without an API key only the error changes. Otherwise loading ends false. On success the installed map is exactly the one generation built (so the root, mains and subs described by Generation.BuildExact reach the component), the title becomes the upper-cased topic plus " - MIND MAP", and the error is cleared. On failure the map is kept and the thrown message shown. Nothing else in the state changes. |
| Interaction.Submit | client/src/Components/MindMapGenerator.jsx:190-193 | A blank topic does nothing. Otherwise the trimmed topic is what gets generated. Without a key the map is kept and the missing-key error shown. A successful generation installs exactly the map built for the trimmed topic, rooted at its upper-cased form, with the matching title and no error. A failed one keeps the map and shows its message. |
| Interaction.ExpandSession | client/src/Components/MindMapGenerator.jsx:222-281 | Without an API key only the error changes. Otherwise the expanding mark is cleared on success and on failure. A failed request, a reply without a fragment, a fragment that does not parse and a merge error each keep the map and show the error behind the "EXPANSION ERROR: " prefix. A successful expansion installs exactly the map the merge computed and leaves the error as it was. A changed map keeps the root and every old record other than the expanded one, and adds only leaves under it. |
| Interaction.ExpandSessionExact | client/src/Components/MindMapGenerator.jsx:222-281 | Expanding a present node with a parsable reply appends exactly the new upper-cased concepts to the key order, leaves the error alone and clears the mark. With no new concept the map is unchanged. Otherwise the expanded node's children gain just the last new key. |
| Interaction.MouseDown | client/src/Components/MindMapGenerator.jsx:398-407 | Pressing on a node starts dragging it. The offset is chosen so that the node's corner plus the offset is the cursor position on the canvas. |
| Interaction.DragTarget | client/src/Components/MindMapGenerator.jsx:413-421 | The drop position is at least (50,25) and at most (width−150, height−75) when the canvas is large enough. It equals the cursor position minus the offset whenever that lies within the bounds. |
| Interaction.MouseMove | client/src/Components/MindMapGenerator.jsx:409-424 | With no dragged key nothing happens. Otherwise only the dragged node's x and y change, to the clamped target, and every other record and the key order stay. |
| Interaction.MouseUp | client/src/Components/MindMapGenerator.jsx:426-429 | The drag ends and the offset returns to (0,0). Nothing else changes. |
| Interaction.DragInPlace | client/src/Components/MindMapGenerator.jsx:398-424 | Pressing on a node inside the bounds and moving without moving the cursor leaves the map as it was. |
| Interaction.MoveAfterUp | client/src/Components/MindMapGenerator.jsx:409-429 | After mouse-up, a move changes nothing. |
| Interaction.NodeClick | client/src/Components/MindMapGenerator.jsx:431-438 | A click during a drag does nothing. Otherwise it selects the node, opens the panel and clears the chat and the answer, leaving the rest alone. |
| Interaction.NodeClickTwice | client/src/Components/MindMapGenerator.jsx:431-438 | Clicking the same node twice is the same as clicking it once. |
| Interaction.DeleteInSession | client/src/Components/MindMapGenerator.jsx:284-318 | Deleting the root or a missing key changes nothing. Otherwise the subtree disappears. Deleting the selected node clears the selection and closes the panel, while any other selection is untouched. |
| Interaction.Click | client/src/Components/MindMapGenerator.jsx:613-619 | Shift-clicking a present non-root node deletes its whole subtree, keeping every other key in its order, and leaves it unselected. A shift-click on a missing key changes nothing. Any other click is exactly an ordinary node click: the map is kept and, unless dragging, the node is selected, the panel opened and the chat cleared. |
| Interaction.PanelExpand | client/src/Components/MindMapGenerator.jsx:725-726 | The expand button does nothing while its node is the one expanding. Otherwise it expands the selected node and clears the mark, keeping the panel open: the map becomes exactly the expansion of the selected key, or on failure is kept with the prefixed message. Without a key only the missing-key error is shown. |
| Interaction.PanelDelete | client/src/Components/MindMapGenerator.jsx:733-735 | The delete button removes the selected node's whole subtree, keeping every other key in its order, and closes the panel. A selection that is no longer in the map changes nothing. |
| Render.EdgesOf | client/src/Components/MindMapGenerator.jsx:443-459 | Every line drawn joins a node with a present, truthy parent to that parent, anchor to anchor. Every such node gets a line. |
| Render.Edges | client/src/Components/MindMapGenerator.jsx:440-462 | The same for the whole map; the PNG export (:343-351) applies the same rule. |
| Render.EdgesOfDistinct | client/src/Components/MindMapGenerator.jsx:443-459 | No child gets two lines. |
| Render.EdgeChildren | client/src/Components/MindMapGenerator.jsx:443-459 | A key is the child end of some line exactly when it has a present, truthy parent. |
| Render.EdgeCount | client/src/Components/MindMapGenerator.jsx:443-459 | There are exactly as many lines as nodes with a present, truthy parent. |
| Render.EdgesFollowChildren | client/src/Components/MindMapGenerator.jsx:443-459 | In a map whose links are mirrored, every line runs along a `children` entry. |
| Render.ExportBox | client/src/Components/MindMapGenerator.jsx:372-373 | A box is 192×80 or 144×64. |
| Render.OneLargeBox | client/src/Components/MindMapGenerator.jsx:372-373 | Exactly one key gets the large box: the first one. |
| Render.LabelCentre | client/src/Components/MindMapGenerator.jsx:384 | The label is drawn strictly inside its box, horizontally centred. |
| Render.FillColor | client/src/Components/MindMapGenerator.jsx:360-371 | A listed colour class maps to its hex value. Any other class gets the grey default, which is itself a listed value. |
| Render.PaletteFill | client/src/Components/MindMapGenerator.jsx:57-64 | Of the twelve node colours only the first seven have their own fill in the export (:360-371). The other five come out grey. |
| Render.Label | client/src/Components/MindMapGenerator.jsx:383 | A key of at most twenty characters is drawn whole. A longer one is drawn as its first twenty characters and "...". |
| Render.LabelCollisions | client/src/Components/MindMapGenerator.jsx:383 | Short keys have distinct labels. Two long keys share a label exactly when their first twenty characters agree. |
| Render.FileName | client/src/Components/MindMapGenerator.jsx:389 | The file name ends in ".png", contains no white space and no upper-case letter, and is at most four characters longer than the map name. A name without white space is simply lower-cased and given ".png". Together with Render.FileNameRun and Text.ReplaceSpaceRunsCollapse this fixes every name. |
| Render.FileNameRun | client/src/Components/MindMapGenerator.jsx:389 | A whole run of white space between words gives the same file name as one underscore. |
| Text.Trim | client/src/Components/MindMapGenerator.jsx:191 | `trim()` returns a middle slice with only white space cut on either side, and it neither starts nor ends with white space. |
| Text.TrimEmptyIffBlank | client/src/Components/MindMapGenerator.jsx:191 | A string trims to empty exactly when it is all white space. |
| Text.JoinSplit | client/src/Components/Dashboard.jsx:82 | Joining the pieces of `split(' ')` with a space gives the string back. |
| Text.SplitFirst | client/src/Components/Dashboard.jsx:82 | `split(' ')` yields at least two pieces exactly when the separator occurs. The first piece is the prefix before the first separator, and the rest are the pieces of what follows it. |
| Text.SplitTwo | client/src/Components/Dashboard.jsx:82-84 | When the separator occurs, the first two pieces joined by it are a prefix of the string that ends at the next separator or at the end. |
| Text.SplitHead | client/src/Components/Dashboard.jsx:82-84 | `split(' ').slice(0, 2)` has two pieces exactly when the separator occurs. One piece is the whole string. The pieces joined by the separator open the string, and two pieces end at the next separator or at the end. |
| Text.Truncate | client/src/Components/MindMapGenerator.jsx:383 | A string within the limit is kept. A longer one is cut to the limit and followed by "...". |
| Text.TruncateIdempotent | client/src/Components/MindMapGenerator.jsx:383 | Truncating a truncated string changes nothing. |
| Text.ReplaceSpaceRuns | client/src/Components/MindMapGenerator.jsx:389 | The result of `replace(/\s+/g, '_')` has no white space and is no longer than the input. |
| Text.ReplaceSpaceRunsCollapse | client/src/Components/MindMapGenerator.jsx:389 | A maximal run of white space becomes exactly one underscore, and the text on either side is replaced independently. |
| Text.UpperCanonical | client/src/Components/MindMapGenerator.jsx:251 | Upper-casing ignores the case a string had before, so keys differing only in case collide. |
| Text.LowerCanonical | client/src/Components/MyMindMaps.jsx:46-50 | Lower-casing ignores the case a string had before. |
| Text.ContainsIffInfix | client/src/Components/MyMindMaps.jsx:48-49 | `includes` holds exactly when the query occurs at some position. |
| Text.NatToStringRoundTrip | client/src/Components/Dashboard.jsx:71-72 | The decimal text of a count reads back as that count. |
| Geometry.Clamp | client/src/Components/MindMapGenerator.jsx:154-155 | `max(lo, min(v, hi))` is never below `lo`, is at most `hi` when `lo ≤ hi`, and equals `v` inside the range. |
| Workspace.DropNode | client/src/Components/MindMapWorkspace.jsx:87 | Exactly the nodes with the given id go, and the rest stay in order. |
| Workspace.DropEdgesAt | client/src/Components/MindMapWorkspace.jsx:88-92 | Exactly the edges touching the id go, and the rest stay in order. |
| Workspace.DeleteSelected | client/src/Components/MindMapWorkspace.jsx:85-95 | With no selection, or the root selected, nothing changes. Otherwise the node and its edges go, the rest stay in order, and the selection is cleared. |
| Workspace.DeleteKeepsOthers | client/src/Components/MindMapWorkspace.jsx:85-95 | Every other node survives a delete, and no remaining node or edge carries the deleted id. |
| Workspace.IdeaId | client/src/Components/MindMapWorkspace.jsx:38-39 | A new id starts with the expanded node's id and carries its letter right after it, so the two new ids differ. |
| Workspace.ExpandNode | client/src/Components/MindMapWorkspace.jsx:32-71 | Exactly two nodes and two edges are appended after the unchanged old lists. The nodes sit 120 to the right and to the left within ±60 vertically, labelled "Idea for …" and "Inspire from …". Both edges run from the node to the new ids, and the flag ends false. |
| Workspace.ExpandSelected | client/src/Components/MindMapWorkspace.jsx:117-118 | The button does nothing while an expansion runs. Otherwise it performs the selected node's expansion: the old nodes and edges stay in front, then the "Idea for" and "Inspire from" nodes follow with an edge from the selected node to each, and the flag is cleared. |
| Workspace.ExpandThenDeleteOrphans | client/src/Components/MindMapWorkspace.jsx:32-95 | Deleting a node right after expanding it leaves both idea nodes in place with no edge from the deleted node. |
| Library.Filtered | client/src/Components/MyMindMaps.jsx:46-50 | The result is an order-preserving subsequence holding each matching map as often as listed and no other. |
| Library.EmptyQueryKeepsAll | client/src/Components/MyMindMaps.jsx:46-50 | An empty query lists every map. |
| Library.QueryIgnoresCase | client/src/Components/MyMindMaps.jsx:46-50 | Typing the query in upper or lower case gives the same list. |
| Library.Toggle | client/src/Components/MyMindMaps.jsx:52-55 | A selected id is dropped and an unselected one appended. Other ids keep their membership, and a duplicate-free selection stays duplicate-free. |
| Library.ToggleTwice | client/src/Components/MyMindMaps.jsx:52-55 | Toggling twice keeps the same ids. It restores the list exactly when the id was absent, or was the last entry. |
| Library.DeleteSelected | client/src/Components/MyMindMaps.jsx:57-61 | Exactly the maps with a selected id go and the rest stay in order. The selection is emptied and the dialog closed. |
| Library.ConfirmText | client/src/Components/MyMindMaps.jsx:321 | The question starts with "Delete ", followed by the selected count in decimal (it reads back as the count) and " mind map", ends in "?", and says "maps" exactly when more than one map is selected. |
| Dashboard.FloorHoursThenDays | client/src/Components/Dashboard.jsx:68-69 | Flooring to hours and then to days is flooring to days directly. |
| Dashboard.TimeDiffThresholds | client/src/Components/Dashboard.jsx:68-72 | The day and hour branches and their plural S switch at exactly one and two days, and one and two hours. |
| Dashboard.TimeDiff | client/src/Components/Dashboard.jsx:65-74 | Under an hour, including the future, gives "JUST NOW". Under a day gives whole hours, and from a day on whole days, each with S from two on. |
| Dashboard.Latest | client/src/Components/Dashboard.jsx:62 | The maximum creation time is attained by some card and bounds all of them. |
| Dashboard.ComputeStats | client/src/Components/Dashboard.jsx:58-63 | The statistics are the card count, the sum of node counts, and the constant 3. The last-saved text is "NEVER" exactly for an empty list, and otherwise the time difference of some card. |
| Dashboard.Excerpt | client/src/Components/Dashboard.jsx:81-85 | The excerpt is the first one or two space-free pieces of the topic, then "ANALYSIS" and "RESEARCH". There are two pieces exactly when the topic contains a space. With no space the one piece is the whole topic. With two, they are the topic up to its second space (or its end), with the first space between them. |
| Dashboard.NodeCount | client/src/Components/Dashboard.jsx:103 | The random node count lies in 10..39. |
| Dashboard.NewCard | client/src/Components/Dashboard.jsx:100-108 | The new card has the given id, time and date, the upper-cased name as title, 10 to 39 nodes, a card colour, and as its excerpt exactly the one or two leading pieces of the upper-cased topic that Dashboard.Excerpt characterises. |
| Dashboard.Submit | client/src/Components/Dashboard.jsx:95-117 | A blank topic or name does nothing. Otherwise a card with the given id, time and date, the upper-cased name, and the excerpt of the upper-cased topic is put in front of the unchanged list, and both inputs are reset. |
| Dashboard.SubmitTotals | client/src/Components/Dashboard.jsx:58-63 | After a submit the map count is one higher and the idea count 10 to 39 higher. |
| Dashboard.SubmitJustNow | client/src/Components/Dashboard.jsx:95-117 | Right after a submit, the last-saved text is "JUST NOW". |
| Dashboard.NewestJustNow | client/src/Components/Dashboard.jsx:62 | A list whose newest card was made now shows "JUST NOW". |
| Dashboard.SumSplit | client/src/Components/Dashboard.jsx:119-122 | The node sum splits between the cards with an id and the others. |
| Dashboard.DeleteMap | client/src/Components/Dashboard.jsx:119-122 | Exactly the cards with the id go and the rest stay in order. The idea count drops by their nodes and the dialog closes. |
| Dashboard.CardTitle | client/src/Components/Dashboard.jsx:250 | A title of at most 18 characters is shown whole. A longer one is shown as its first 18 characters and "...". |
| Dashboard.CardTitleStable | client/src/Components/Dashboard.jsx:250 | Shortening a shortened title changes nothing. |

## Left out

- The request to the language model, the prompt strings and the chat panel's `sendMessage`. They are network I/O: the reply is a parameter, and `JSON.parse` with the shape reads is a `parse` parameter.
- The "KEY NOT SET" throw inside `callGeminiAPI` is not modelled, because both callers check the key before calling.
- `Math.cos`/`Math.sin`, `Math.random` and `Date.now` are parameters, and only the clamps and list effects are modelled. Coordinates are reals, not IEEE doubles.
- `toUpperCase`/`toLowerCase` are modelled on ASCII letters only. Other letters are left as they are.
- White space for `trim` and `\s` is the ECMAScript set of Unicode space characters, without the Unicode database behind it.
- JavaScript orders integer-like object keys first. Key order here is plain insertion order.
- Date formatting with `toLocaleDateString`: the formatted date is a parameter.
- Canvas pixels, borders, text rendering and the download link of the export are left out. Only the geometry, fill colour, label and file name are modelled.
- DOM event wiring, React re-rendering, styling and the ReactFlow library, including `onConnect`.
- The dashboard's two-second `setTimeout` is treated as firing at once. The interval with `creating` set, and input typed during it, are not modelled. The success `alert` is left out.
- Two expansions can run at once through the context-menu path. The model treats each expansion as one step.
- Interaction.ExpandSession: after the reply arrives (MindMapGenerator.jsx:235) the source reads and copies the `nodes` value its closure captured when the expansion began (:244, :247), then installs it with `setNodes` (:275). A drag or a delete made while the reply was pending is therefore lost. Here the expansion is one step on the current map, so that lost update is not represented.
- Expansion.ExpNode: the ids depend on the clock values `now(i)`, which are a parameter. Two turns within the same millisecond still get distinct ids because the turn index is part of the id.
- Render.Label: lengths count characters (Unicode scalar values), not the UTF-16 code units that JavaScript's `length` and `substring` count. A key with characters outside the Basic Multilingual Plane, such as emoji, is cut at a different place, and a cut inside a surrogate pair cannot be represented.
- Dashboard.CardTitle: the 18-character limit counts characters, not UTF-16 code units, for the same reason as Render.Label.
- Text.Truncate: the limit counts characters, not UTF-16 code units, for the same reason as Render.Label.
- The busy flags (`loading`, `expandingNode`, `isExpanding`) are set at the start of an operation and cleared at its end. Each operation is one step here, so only the cleared value is observable; the value while the request is outstanding is not modelled.
- Selecting a workspace node (`onNodeClick`, MindMapWorkspace.jsx:185) only stores the clicked node. The selection is part of the state the model starts from.
- Sign-in, sign-up, the server, the landing page, the profile settings and routing have no logic of this kind.
- Deletion.DeleteNode: requires a ghost `rank` that shows the `children` lists have no cycles. On a cyclic map the source recurses without end, and that case is not modelled.
- Workspace.ExpandNode: the `catch` branch is not modelled. Nothing in the `try` can throw for the node records modelled here, so the flag is always cleared and the error always empty.
- Interaction.MouseMove: a dragged key that is not in the map is written as a bare record with empty id and colour. JavaScript would leave those fields undefined.
- Interaction.DeleteInSession: a selection can point to a node deleted as part of another node's subtree. The code leaves that selection in place, and so does the model.
- Library.ToggleTwice: toggling a selected id that is not the last entry twice moves it to the end. The list is restored only up to order in that case.

=== FILE: base.dfy ===
/** Failure-carrying wrappers shared by every module of the model. */
module Base {

  /** A value that may be missing: JavaScript's `undefined` / `null`. */
  datatype Option<+T> = None | Some(value: T)

  /** The outcome of an operation that may throw; `Err` carries the message of
      the thrown JavaScript `Error`. */
  datatype Result<+T> = Ok(value: T) | Err(message: string)
}

=== FILE: dashboard.dfy ===
/** The dashboard: the recent-maps list with its statistics and "time ago"
    texts, creating a placeholder map from the form, and deleting a map. */
module Dashboard {
  import opened Base
  import opened Seqs
  import opened Text

  /** One recent map: `{id, title, nodes, date, excerpt, color, createdAt}`. */
  datatype Card = Card(id: int, title: string, nodes: int, date: string, excerpt: seq<string>,
                       color: string, createdAt: int)

  /** The component's state: the two form fields, the creating flag, the
      list, and the id whose delete is awaiting confirmation. */
  datatype Board = Board(topic: string, mapName: string, creating: bool, maps: seq<Card>, confirming: Option<int>)

  /** Milliseconds in an hour and in a day. */
  const HourMs: int := 3600000
  const DayMs: int := 86400000

  // ---------------------------------------------------------------------------
  // "Time ago"

  /** Flooring by hours and then by days is flooring by days. Dafny's `/` on
      integers with a positive divisor rounds down, as `Math.floor` does, also
      for timestamps in the future. */
  lemma FloorHoursThenDays(diff: int)
    ensures (diff / HourMs) / 24 == diff / DayMs
  {
    var h := diff / HourMs;
    var r1 := diff % HourMs;
    var d := h / 24;
    var r2 := h % 24;
    assert diff == HourMs * h + r1 && 0 <= r1 < HourMs;
    assert h == 24 * d + r2 && 0 <= r2 < 24;
    assert diff == DayMs * d + (HourMs * r2 + r1);
    assert 0 <= HourMs * r2 + r1 < DayMs;
  }

  /** The tests on floored hours and days are thresholds on the difference. */
  lemma TimeDiffThresholds(diff: int)
    ensures diff / HourMs > 0 <==> diff >= HourMs
    ensures diff / HourMs > 1 <==> diff >= 2 * HourMs
    ensures (diff / HourMs) / 24 > 0 <==> diff >= DayMs
    ensures (diff / HourMs) / 24 > 1 <==> diff >= 2 * DayMs
  {
    FloorHoursThenDays(diff);
  }

  /** `getTimeDiff(timestamp)` at the moment `now`: whole days if there is at
      least one, else whole hours if there is at least one, else "JUST NOW".
      The unit takes an S from two on. */
  function TimeDiff(now: int, timestamp: int): (r: string)
    ensures now - timestamp < HourMs ==> r == "JUST NOW"
    ensures HourMs <= now - timestamp < DayMs ==>
      r == NatToString((now - timestamp) / HourMs) + " HOUR" + (if now - timestamp >= 2 * HourMs then "S" else "") + " AGO"
    ensures DayMs <= now - timestamp ==>
      r == NatToString((now - timestamp) / DayMs) + " DAY" + (if now - timestamp >= 2 * DayMs then "S" else "") + " AGO"
  {
    var diff := now - timestamp;
    var hours := diff / HourMs;
    var days := hours / 24;
    TimeDiffThresholds(diff);
    FloorHoursThenDays(diff);
    if days > 0 then NatToString(days) + " DAY" + (if days > 1 then "S" else "") + " AGO"
    else if hours > 0 then NatToString(hours) + " HOUR" + (if hours > 1 then "S" else "") + " AGO"
    else "JUST NOW"
  }

  // ---------------------------------------------------------------------------
  // Statistics

  /** `reduce((sum, map) => sum + map.nodes, 0)`. */
  function SumNodes(maps: seq<Card>): int {
    if maps == [] then 0 else maps[0].nodes + SumNodes(maps[1..])
  }

  /** `Math.max(...maps.map(m => m.createdAt))` for a non-empty list. */
  function Latest(maps: seq<Card>): (t: int)
    requires maps != []
    ensures exists i :: 0 <= i < |maps| && maps[i].createdAt == t
    ensures forall i :: 0 <= i < |maps| ==> maps[i].createdAt <= t
  {
    if |maps| == 1 then maps[0].createdAt
    else
      var rest := Latest(maps[1..]);
      assert forall i :: 1 <= i < |maps| ==> maps[i] == maps[1..][i - 1];
      if maps[0].createdAt >= rest then maps[0].createdAt else rest
  }

  datatype Stats = Stats(totalMaps: nat, ideasExplored: int, activeSessions: int, lastSaved: string)

  /** The four figures at the top of the dashboard. ACTIVE SESSIONS is a fixed 3. */
  function ComputeStats(maps: seq<Card>, now: int): (r: Stats)
    ensures r.totalMaps == |maps| && r.activeSessions == 3
    ensures r.ideasExplored == SumNodes(maps)
    ensures maps == [] <==> r.lastSaved == "NEVER"
    ensures maps != [] ==> exists i :: 0 <= i < |maps| && r.lastSaved == TimeDiff(now, maps[i].createdAt)
                                       && forall j :: 0 <= j < |maps| ==> maps[j].createdAt <= maps[i].createdAt
  {
    if maps == [] then Stats(0, 0, 3, "NEVER")
    else
      var t := Latest(maps);
      var s := TimeDiff(now, t);
      assert s != "NEVER" by {
        if now - t < HourMs {
          assert s == "JUST NOW";
        } else {
          assert s[0] != 'N' by {
            var n := if now - t < DayMs then (now - t) / HourMs else (now - t) / DayMs;
            assert s[..|NatToString(n)|] == NatToString(n);
            assert s[0] == NatToString(n)[0];
          }
        }
      }
      Stats(|maps|, SumNodes(maps), 3, s)
  }

  function HasId(id: int): Card -> bool {
    (m: Card) => m.id == id
  }

  function OtherId(id: int): Card -> bool {
    (m: Card) => m.id != id
  }

  /** Deleting by id splits the node total between what stays and what goes. */
  lemma {:induction false} SumSplit(maps: seq<Card>, id: int)
    ensures SumNodes(Filter(maps, OtherId(id))) + SumNodes(Filter(maps, HasId(id))) == SumNodes(maps)
    decreases |maps|
  {
    if maps != [] {
      SumSplit(maps[1..], id);
      var keep := Filter(maps[1..], OtherId(id));
      var drop := Filter(maps[1..], HasId(id));
      if maps[0].id == id {
        assert Filter(maps, OtherId(id)) == keep;
        assert Filter(maps, HasId(id)) == [maps[0]] + drop;
        assert ([maps[0]] + drop)[1..] == drop;
      } else {
        assert Filter(maps, HasId(id)) == drop;
        assert Filter(maps, OtherId(id)) == [maps[0]] + keep;
        assert ([maps[0]] + keep)[1..] == keep;
      }
    }
  }

  // ---------------------------------------------------------------------------
  // Creating and deleting

  /** The colour classes a new card can get. */
  const CardColors: seq<string> := ["bg-pink-500", "bg-green-400", "bg-blue-500", "bg-yellow-400", "bg-purple-400", "bg-orange-400"]

  /** `getRandomExcerpt(topic)`: the first one or two space-separated pieces
      of the topic, then ANALYSIS and RESEARCH. */
  function Excerpt(topic: string): (r: seq<string>)
    ensures 3 <= |r| <= 4
    ensures r[|r| - 2] == "ANALYSIS" && r[|r| - 1] == "RESEARCH"
    ensures forall i :: 0 <= i < |r| - 2 ==> ' ' !in r[i]
    ensures StartsWith(topic, Join(r[..|r| - 2], ' '))
    ensures |r| == 4 <==> ' ' in topic
    ensures |r| == 3 ==> r[0] == topic
    ensures |r| == 4 ==>
      var n := |r[0]| + 1 + |r[1]|;
      && n <= |topic| && topic[..n] == r[0] + " " + r[1]
      && (n == |topic| || topic[n] == ' ')
  {
    var pieces := Split(topic, ' ');
    var head := pieces[..if |pieces| < 2 then |pieces| else 2];
    SplitHead(topic, ' ');
    var r := head + ["ANALYSIS", "RESEARCH"];
    assert r[..|r| - 2] == head;
    assert r[0] == head[0] && (|head| == 2 ==> r[1] == head[1]);
    r
  }

  /** `Math.floor(Math.random() * 30) + 10` for the random value `u`. */
  function NodeCount(u: real): (n: int)
    requires 0.0 <= u < 1.0
    ensures 10 <= n <= 39
  {
    (u * 30.0).Floor + 10
  }

  /** What a card made from the form `b` holds: the given id and creation
      time, the name upper-cased as its title, 10 to 39 nodes, a colour of
      the card palette, and as its excerpt the one or two leading pieces of
      the upper-cased topic followed by ANALYSIS and RESEARCH. */
  predicate CardFor(c: Card, b: Board, id: int, createdAt: int) {
    && c.id == id && c.createdAt == createdAt && c.title == Upper(b.mapName)
    && 10 <= c.nodes <= 39 && c.color in CardColors
    && 3 <= |c.excerpt| && c.excerpt[|c.excerpt| - 2] == "ANALYSIS" && c.excerpt[|c.excerpt| - 1] == "RESEARCH"
    && StartsWith(Upper(b.topic), Join(c.excerpt[..|c.excerpt| - 2], ' '))
    && c.excerpt == Excerpt(Upper(b.topic))
  }

  /** The card `handleSubmit` builds: the name upper-cased as its title, a
      random node count and colour, and the excerpt of the upper-cased topic. */
  function NewCard(b: Board, id: int, createdAt: int, u: real, pick: nat, date: string): (c: Card)
    requires 0.0 <= u < 1.0
    ensures CardFor(c, b, id, createdAt) && c.date == date
  {
    Card(id, Upper(b.mapName), NodeCount(u), date, Excerpt(Upper(b.topic)),
         CardColors[pick % |CardColors|], createdAt)
  }

  /** `handleSubmit` together with the timer callback it schedules: a blank
      topic or name is ignored; otherwise a card is put first in the list and
      the form is cleared. `id`, `createdAt`, `u`, `pick` and `date` stand for
      `Date.now()`, `new Date().getTime()`, the two `Math.random()` draws and
      the formatted date. The title keeps the name's surrounding spaces. */
  function Submit(b: Board, id: int, createdAt: int, u: real, pick: nat, date: string): (r: Board)
    requires 0.0 <= u < 1.0
    ensures AllSpace(b.topic) || AllSpace(b.mapName) ==> r == b
    ensures !AllSpace(b.topic) && !AllSpace(b.mapName) ==>
      && |r.maps| == |b.maps| + 1 && r.maps[1..] == b.maps
      && CardFor(r.maps[0], b, id, createdAt) && r.maps[0].date == date
      && r.topic == "" && r.mapName == "" && !r.creating && r.confirming == b.confirming
  {
    TrimEmptyIffBlank(b.topic);
    TrimEmptyIffBlank(b.mapName);
    if Trim(b.topic) == [] || Trim(b.mapName) == [] then b
    else
      var card := NewCard(b, id, createdAt, u, pick, date);
      var r := Board("", "", false, [card] + b.maps, b.confirming);
      assert r.maps[0] == card && r.maps[1..] == b.maps;
      r
  }

  /** A new card raises the total by one and the ideas by its node count. */
  lemma SubmitTotals(b: Board, id: int, createdAt: int, u: real, pick: nat, date: string, now: int)
    requires 0.0 <= u < 1.0
    requires !AllSpace(b.topic) && !AllSpace(b.mapName)
    ensures var before := ComputeStats(b.maps, now);
            var after := ComputeStats(Submit(b, id, createdAt, u, pick, date).maps, now);
      && after.totalMaps == before.totalMaps + 1
      && before.ideasExplored + 10 <= after.ideasExplored <= before.ideasExplored + 39
  {
    var r := Submit(b, id, createdAt, u, pick, date);
    assert r.maps[1..] == b.maps;
    assert SumNodes(r.maps) == r.maps[0].nodes + SumNodes(b.maps);
  }

  /** Looked at the moment it was made, a card newer than every other makes
      the list "JUST NOW" saved. */
  lemma SubmitJustNow(b: Board, id: int, createdAt: int, u: real, pick: nat, date: string)
    requires 0.0 <= u < 1.0
    requires !AllSpace(b.topic) && !AllSpace(b.mapName)
    requires forall j :: 0 <= j < |b.maps| ==> b.maps[j].createdAt <= createdAt
    ensures ComputeStats(Submit(b, id, createdAt, u, pick, date).maps, createdAt).lastSaved == "JUST NOW"
  {
    var maps := Submit(b, id, createdAt, u, pick, date).maps;
    assert maps[0].createdAt == createdAt;
    assert forall j :: 0 <= j < |maps| ==> maps[j].createdAt <= createdAt by {
      forall j | 1 <= j < |maps| ensures maps[j].createdAt <= createdAt {
        assert maps[j] == maps[1..][j - 1] == b.maps[j - 1];
      }
    }
    NewestJustNow(maps, createdAt);
  }

  /** When the newest card was made at `now`, the list was saved "JUST NOW". */
  lemma NewestJustNow(maps: seq<Card>, now: int)
    requires maps != [] && maps[0].createdAt == now
    requires forall j :: 0 <= j < |maps| ==> maps[j].createdAt <= now
    ensures ComputeStats(maps, now).lastSaved == "JUST NOW"
  {
    var i :| 0 <= i < |maps| && ComputeStats(maps, now).lastSaved == TimeDiff(now, maps[i].createdAt)
             && forall j :: 0 <= j < |maps| ==> maps[j].createdAt <= maps[i].createdAt;
    assert maps[i].createdAt == now;
  }

  /** `handleDeleteMap(mapId)`: every card with that id goes, the others stay
      in order, and the confirmation closes. */
  function DeleteMap(b: Board, id: int): (r: Board)
    ensures IsSubsequence(r.maps, b.maps)
    ensures forall m :: multiset(r.maps)[m] == if m.id != id then multiset(b.maps)[m] else 0
    ensures r.confirming.None? && r.topic == b.topic && r.mapName == b.mapName && r.creating == b.creating
    ensures SumNodes(r.maps) == SumNodes(b.maps) - SumNodes(Filter(b.maps, HasId(id)))
  {
    FilterIsSubsequence(b.maps, OtherId(id));
    FilterMultiset(b.maps, OtherId(id));
    SumSplit(b.maps, id);
    b.(maps := Filter(b.maps, OtherId(id)), confirming := None)
  }

  /** A card's heading: titles over eighteen characters are cut. */
  function CardTitle(title: string): (r: string)
    ensures |r| <= 21
    ensures |title| <= 18 ==> r == title
    ensures |title| > 18 ==> r == title[..18] + "..."
  {
    Truncate(title, 18)
  }

  /** A heading that is already cut is shown as it is. */
  lemma CardTitleStable(title: string)
    ensures CardTitle(CardTitle(title)) == CardTitle(title)
  {
    TruncateIdempotent(title, 18);
  }
}

=== FILE: deletion.dfy ===
/** Subtree deletion in the mind-map generator (`deleteNode`): the root guard,
    detaching the node from its parent's `children`, and the recursive
    `deleteChildren` walk, which follows `children` lists only. */
module Deletion {
  import opened Base
  import opened Seqs
  import opened Store

  // ---------------------------------------------------------------------------
  // Acyclicity and the reference notion of a subtree

  /** `rank` witnesses that following `children` among present keys never comes
      back to a key: every present child ranks strictly below its parent. The
      recursive walk only terminates on such maps (a cycle overflows the stack). */
  ghost predicate Ranked(m: map<string, Node>, rank: map<string, nat>) {
    && (forall k :: k in m ==> k in rank)
    && (forall k, c :: k in m && c in m && c in m[k].children ==> rank[c] < rank[k])
  }

  /** `k` together with every key reachable from it through `children` lists of
      present nodes. Listed keys that are not present are included, as leaves. */
  ghost function Subtree(m: map<string, Node>, k: string, rank: map<string, nat>): set<string>
    requires Ranked(m, rank)
    decreases if k in m then rank[k] + 1 else 0, 2
  {
    {k} + Descendants(m, k, rank)
  }

  /** The keys reachable from `k` in one or more steps. */
  ghost function Descendants(m: map<string, Node>, k: string, rank: map<string, nat>): set<string>
    requires Ranked(m, rank)
    decreases if k in m then rank[k] + 1 else 0, 1
  {
    if k in m then SubtreesOf(m, m[k].children, rank, rank[k]) else {}
  }

  /** The union of the subtrees of the keys in `cs`, whose present members all
      rank below `top`. */
  ghost function SubtreesOf(m: map<string, Node>, cs: seq<string>, rank: map<string, nat>, top: nat): set<string>
    requires Ranked(m, rank)
    requires forall c :: c in cs && c in m ==> rank[c] < top
    decreases top + 1, 0, |cs|
  {
    if cs == [] then {} else Subtree(m, cs[0], rank) + SubtreesOf(m, cs[1..], rank, top)
  }

  /** A set of keys that contains, with each present member, all its descendants. */
  ghost predicate Closed(m: map<string, Node>, d: set<string>, rank: map<string, nat>)
    requires Ranked(m, rank)
  {
    forall x :: x in d && x in m ==> Descendants(m, x, rank) <= d
  }

  lemma RankedSubmap(m: map<string, Node>, m': map<string, Node>, rank: map<string, nat>)
    requires Ranked(m, rank)
    requires forall x :: x in m' ==> x in m && m'[x] == m[x]
    ensures Ranked(m', rank)
  {
  }

  // ---------------------------------------------------------------------------
  // The deletion as the component performs it

  /** `deleteChildren(parentKey)`: for each key listed in the parent's
      `children` (read once, before the loop), first delete that key's own
      children, then the key itself. A key that is no longer present is skipped. */
  function DeleteChildren(g: Graph, k: string, ghost rank: map<string, nat>): (r: Graph)
    requires Valid(g) && Ranked(g.nodes, rank)
    ensures Valid(r) && Ranked(r.nodes, rank)
    ensures forall x :: x in r.nodes ==> x in g.nodes && r.nodes[x] == g.nodes[x]
    decreases if k in g.nodes then rank[k] + 1 else 0, 1
  {
    if k in g.nodes then DeleteEach(g, g.nodes[k].children, rank, rank[k]) else g
  }

  /** The `forEach` of `deleteChildren` over the captured list `cs`. */
  function DeleteEach(g: Graph, cs: seq<string>, ghost rank: map<string, nat>, ghost top: nat): (r: Graph)
    requires Valid(g) && Ranked(g.nodes, rank)
    requires forall c :: c in cs && c in g.nodes ==> rank[c] < top
    ensures Valid(r) && Ranked(r.nodes, rank)
    ensures forall x :: x in r.nodes ==> x in g.nodes && r.nodes[x] == g.nodes[x]
    decreases top + 1, 0, |cs|
  {
    if cs == [] then g
    else
      var g1 := DeleteChildren(g, cs[0], rank);
      var g2 := Remove(g1, cs[0]);
      RankedSubmap(g1.nodes, g2.nodes, rank);
      DeleteEach(g2, cs[1..], rank, top)
  }

  /** The parent whose `children` list `deleteNode(k)` rewrites: `node.parent`
      when it is truthy and names a present node. */
  function ParentToDetach(g: Graph, k: string): Option<string>
    requires k in g.nodes
  {
    var n := g.nodes[k];
    if HasParentLink(n) && n.parent.value in g.nodes then Some(n.parent.value) else None
  }

  /** `newNodes[parent] = {...parent, children: (parent.children || []).filter(c => c !== k)}`. */
  function Detach(g: Graph, k: string): (r: Graph)
    requires Valid(g) && k in g.nodes
    ensures Valid(r)
  {
    match ParentToDetach(g, k)
    case None => g
    case Some(p) => Put(g, p, g.nodes[p].(children := Without(g.nodes[p].children, {k})))
  }

  /** What `deleteNode(k)` does to the store. The root (first key) is guarded
      and left alone. A key that is not present makes `nodeToDelete.parent`
      throw before anything is written. Otherwise the node is detached from its
      parent and then it and its whole `children` subtree are deleted. */
  function DeleteNode(g: Graph, k: string, ghost rank: map<string, nat>): (r: Result<Graph>)
    requires Valid(g) && Ranked(g.nodes, rank)
    ensures IsRoot(g, k) ==> r == Ok(g)
    ensures !IsRoot(g, k) && k !in g.nodes ==> r.Err?
    ensures !IsRoot(g, k) && k in g.nodes ==>
      && r.Ok? && Valid(r.value)
      && var s := Subtree(g.nodes, k, rank);
      && (forall x :: x in r.value.nodes <==> x in g.nodes && x !in s)
      && r.value.order == Without(g.order, s)
      && (forall x :: x in r.value.nodes && ParentToDetach(g, k) != Some(x) ==> r.value.nodes[x] == g.nodes[x])
      && (forall p :: ParentToDetach(g, k) == Some(p) && p in r.value.nodes ==>
            r.value.nodes[p] == g.nodes[p].(children := Without(g.nodes[p].children, {k})))
  {
    if IsRoot(g, k) then Ok(g)
    else if k !in g.nodes then Err("Cannot read properties of undefined (reading 'parent')")
    else
      var g1 := Detach(g, k);
      DetachKeepsSubtree(g, k, rank);
      DeleteNodeIsPrune(g, k, rank);
      PruneDetachFacts(g, k, Subtree(g.nodes, k, rank));
      Ok(Remove(DeleteChildren(g1, k, rank), k))
  }

  /** The walk after detaching deletes exactly the subtree of `k`. */
  lemma DeleteNodeIsPrune(g: Graph, k: string, rank: map<string, nat>)
    requires Valid(g) && Ranked(g.nodes, rank) && k in g.nodes
    requires Ranked(Detach(g, k).nodes, rank)
    requires Subtree(Detach(g, k).nodes, k, rank) == Subtree(g.nodes, k, rank)
    ensures Remove(DeleteChildren(Detach(g, k), k, rank), k) == Prune(Detach(g, k), Subtree(g.nodes, k, rank))
  {
    var g1 := Detach(g, k);
    DeleteChildrenSpec(g1, k, rank);
    PruneTwice(g1, Descendants(g1.nodes, k, rank), {k});
    assert Descendants(g1.nodes, k, rank) + {k} == Subtree(g1.nodes, k, rank);
  }

  /** Deleting a set of keys after detaching `k` from its parent, entry by entry. */
  lemma PruneDetachFacts(g: Graph, k: string, s: set<string>)
    requires Valid(g) && k in g.nodes
    ensures var r := Prune(Detach(g, k), s);
      && (forall x :: x in r.nodes <==> x in g.nodes && x !in s)
      && r.order == Without(g.order, s)
      && (forall x :: x in r.nodes && ParentToDetach(g, k) != Some(x) ==> r.nodes[x] == g.nodes[x])
      && (forall p :: ParentToDetach(g, k) == Some(p) && p in r.nodes ==>
            r.nodes[p] == g.nodes[p].(children := Without(g.nodes[p].children, {k})))
  {
    var g1 := Detach(g, k);
    assert g1.order == g.order;
    assert g1.nodes.Keys == g.nodes.Keys;
  }

  /** The node count drops by the size of the deleted subtree,
      and deleting a node with a present parent removes it from that parent's
      `children`. */
  lemma DeleteNodeCount(g: Graph, k: string, rank: map<string, nat>)
    requires Valid(g) && Ranked(g.nodes, rank)
    requires k in g.nodes && !IsRoot(g, k)
    ensures DeleteNode(g, k, rank).Ok?
    ensures |DeleteNode(g, k, rank).value.nodes| == |g.nodes| - |Subtree(g.nodes, k, rank) * g.nodes.Keys|
    ensures forall p :: ParentToDetach(g, k) == Some(p) && p in DeleteNode(g, k, rank).value.nodes ==>
              k !in DeleteNode(g, k, rank).value.nodes[p].children
  {
    var r := DeleteNode(g, k, rank).value;
    var s := Subtree(g.nodes, k, rank);
    assert r.nodes.Keys == g.nodes.Keys - s;
    assert g.nodes.Keys == (g.nodes.Keys - s) + (s * g.nodes.Keys);
  }

  // ---------------------------------------------------------------------------
  // Correctness of the walk

  /** `deleteChildren(k)` deletes exactly the descendants of `k`. */
  lemma {:induction false} DeleteChildrenSpec(g: Graph, k: string, rank: map<string, nat>)
    requires Valid(g) && Ranked(g.nodes, rank)
    ensures DeleteChildren(g, k, rank) == Prune(g, Descendants(g.nodes, k, rank))
    decreases if k in g.nodes then rank[k] + 1 else 0, 1
  {
    if k in g.nodes {
      DeleteEachSpec(g, g.nodes[k].children, rank, rank[k]);
    } else {
      PruneNothing(g);
    }
  }

  /** The `forEach` deletes exactly the subtrees of the listed keys, even though
      each step works on the map the previous steps left behind. */
  lemma {:induction false} DeleteEachSpec(g: Graph, cs: seq<string>, rank: map<string, nat>, top: nat)
    requires Valid(g) && Ranked(g.nodes, rank)
    requires forall c :: c in cs && c in g.nodes ==> rank[c] < top
    ensures DeleteEach(g, cs, rank, top) == Prune(g, SubtreesOf(g.nodes, cs, rank, top))
    decreases top + 1, 0, |cs|
  {
    if cs == [] {
      PruneNothing(g);
    } else {
      var g2 := Remove(DeleteChildren(g, cs[0], rank), cs[0]);
      FirstSubtreeDeleted(g, cs[0], rank);
      RankedSubmap(g.nodes, g2.nodes, rank);
      DeleteEachSpec(g2, cs[1..], rank, top);
      RestAfterFirst(g, cs, rank, top);
    }
  }

  /** One step of the `forEach`: the first listed key goes with its whole subtree. */
  lemma FirstSubtreeDeleted(g: Graph, c: string, rank: map<string, nat>)
    requires Valid(g) && Ranked(g.nodes, rank)
    ensures Remove(DeleteChildren(g, c, rank), c) == Prune(g, Subtree(g.nodes, c, rank))
    decreases if c in g.nodes then rank[c] + 1 else 0, 2
  {
    DeleteChildrenSpec(g, c, rank);
    PruneTwice(g, Descendants(g.nodes, c, rank), {c});
    assert Descendants(g.nodes, c, rank) + {c} == Subtree(g.nodes, c, rank);
  }

  /** The rest of the `forEach`, run on the map without the first subtree,
      deletes what it would have deleted from the full map. */
  lemma RestAfterFirst(g: Graph, cs: seq<string>, rank: map<string, nat>, top: nat)
    requires Valid(g) && Ranked(g.nodes, rank) && cs != []
    requires forall c :: c in cs && c in g.nodes ==> rank[c] < top
    ensures var d := Subtree(g.nodes, cs[0], rank);
      Ranked(g.nodes - d, rank) &&
      Prune(Prune(g, d), SubtreesOf(g.nodes - d, cs[1..], rank, top)) == Prune(g, SubtreesOf(g.nodes, cs, rank, top))
  {
    var m := g.nodes;
    var d := Subtree(m, cs[0], rank);
    SubtreeClosed(m, cs[0], rank);
    FrameSubtreesOf(m, d, cs[1..], rank, top);
    PruneTwice(g, d, SubtreesOf(m - d, cs[1..], rank, top));
    assert d + SubtreesOf(m - d, cs[1..], rank, top) == SubtreesOf(m, cs, rank, top);
  }

  /** Deleting a closed set first does not change what the rest of the walk
      deletes, up to the keys already gone. */
  lemma {:induction false} FrameSubtree(m: map<string, Node>, d: set<string>, k: string, rank: map<string, nat>)
    requires Ranked(m, rank) && Closed(m, d, rank)
    ensures Ranked(m - d, rank)
    ensures Subtree(m - d, k, rank) + d == Subtree(m, k, rank) + d
    decreases if k in m then rank[k] + 1 else 0, 2
  {
    RankedSubmap(m, m - d, rank);
    if k !in d && k in m {
      FrameSubtreesOf(m, d, m[k].children, rank, rank[k]);
    }
  }

  lemma {:induction false} FrameSubtreesOf(m: map<string, Node>, d: set<string>, cs: seq<string>, rank: map<string, nat>, top: nat)
    requires Ranked(m, rank) && Closed(m, d, rank)
    requires forall c :: c in cs && c in m ==> rank[c] < top
    ensures Ranked(m - d, rank)
    ensures SubtreesOf(m - d, cs, rank, top) + d == SubtreesOf(m, cs, rank, top) + d
    decreases top + 1, 0, |cs|
  {
    RankedSubmap(m, m - d, rank);
    if cs != [] {
      FrameSubtree(m, d, cs[0], rank);
      FrameSubtreesOf(m, d, cs[1..], rank, top);
    }
  }

  /** A subtree contains the subtree of each of its members. */
  lemma {:induction false} SubtreeTransitive(m: map<string, Node>, c: string, x: string, rank: map<string, nat>)
    requires Ranked(m, rank)
    requires x in Subtree(m, c, rank)
    ensures Subtree(m, x, rank) <= Subtree(m, c, rank)
    decreases if c in m then rank[c] + 1 else 0, 2
  {
    if x != c {
      SubtreesOfTransitive(m, m[c].children, x, rank, rank[c]);
    }
  }

  lemma {:induction false} SubtreesOfTransitive(m: map<string, Node>, cs: seq<string>, x: string, rank: map<string, nat>, top: nat)
    requires Ranked(m, rank)
    requires forall c :: c in cs && c in m ==> rank[c] < top
    requires x in SubtreesOf(m, cs, rank, top)
    ensures Subtree(m, x, rank) <= SubtreesOf(m, cs, rank, top)
    decreases top + 1, 0, |cs|
  {
    if x in Subtree(m, cs[0], rank) {
      SubtreeTransitive(m, cs[0], x, rank);
    } else {
      SubtreesOfTransitive(m, cs[1..], x, rank, top);
    }
  }

  lemma SubtreeClosed(m: map<string, Node>, c: string, rank: map<string, nat>)
    requires Ranked(m, rank)
    ensures Closed(m, Subtree(m, c, rank), rank)
  {
    forall x | x in Subtree(m, c, rank) && x in m
      ensures Descendants(m, x, rank) <= Subtree(m, c, rank)
    {
      SubtreeTransitive(m, c, x, rank);
    }
  }

  /** Present descendants rank strictly below their ancestor. */
  lemma {:induction false} RankBelow(m: map<string, Node>, k: string, x: string, rank: map<string, nat>)
    requires Ranked(m, rank)
    requires x in Descendants(m, k, rank) && x in m
    ensures k in m && rank[x] < rank[k]
    decreases if k in m then rank[k] + 1 else 0, 1
  {
    RankBelowOf(m, m[k].children, x, rank, rank[k]);
  }

  lemma {:induction false} RankBelowOf(m: map<string, Node>, cs: seq<string>, x: string, rank: map<string, nat>, top: nat)
    requires Ranked(m, rank)
    requires forall c :: c in cs && c in m ==> rank[c] < top
    requires x in SubtreesOf(m, cs, rank, top) && x in m
    ensures rank[x] < top
    decreases top + 1, 0, |cs|
  {
    if x in Subtree(m, cs[0], rank) {
      if x != cs[0] {
        RankBelow(m, cs[0], x, rank);
      }
    } else {
      RankBelowOf(m, cs[1..], x, rank, top);
    }
  }

  // ---------------------------------------------------------------------------
  // Detaching from the parent does not change the subtree

  /** Rewriting the parent's `children` happens before the walk, but the walk
      never reaches the parent (that would be a cycle) unless the rewrite
      changed nothing. */
  lemma DetachKeepsSubtree(g: Graph, k: string, rank: map<string, nat>)
    requires Valid(g) && Ranked(g.nodes, rank) && k in g.nodes
    ensures Ranked(Detach(g, k).nodes, rank)
    ensures Subtree(Detach(g, k).nodes, k, rank) == Subtree(g.nodes, k, rank)
  {
    var m := g.nodes;
    match ParentToDetach(g, k)
    case None =>
    case Some(p) =>
      var m' := Detach(g, k).nodes;
      if k in m[p].children {
        assert rank[k] < rank[p];
        if p in Subtree(m, k, rank) {
          if p != k {
            RankBelow(m, k, p, rank);
          }
          assert false;
        }
        assert Ranked(m', rank);
        SubtreeUnchanged(m, m', k, rank);
      } else {
        WithoutNothing(m[p].children, {k});
        assert m' == m;
      }
  }

  /** A subtree depends only on the records of its own members. */
  lemma {:induction false} SubtreeUnchanged(m: map<string, Node>, m': map<string, Node>, k: string, rank: map<string, nat>)
    requires Ranked(m, rank) && Ranked(m', rank)
    requires m'.Keys == m.Keys
    requires forall x :: x in Subtree(m, k, rank) && x in m ==> m'[x] == m[x]
    ensures Subtree(m', k, rank) == Subtree(m, k, rank)
    decreases if k in m then rank[k] + 1 else 0, 2
  {
    if k in m {
      forall x | x in SubtreesOf(m, m[k].children, rank, rank[k]) && x in m
        ensures m'[x] == m[x]
      {
        assert x in Subtree(m, k, rank);
      }
      SubtreesOfUnchanged(m, m', m[k].children, rank, rank[k]);
    }
  }

  lemma {:induction false} SubtreesOfUnchanged(m: map<string, Node>, m': map<string, Node>, cs: seq<string>, rank: map<string, nat>, top: nat)
    requires Ranked(m, rank) && Ranked(m', rank)
    requires m'.Keys == m.Keys
    requires forall c :: c in cs && c in m ==> rank[c] < top
    requires forall x :: x in SubtreesOf(m, cs, rank, top) && x in m ==> m'[x] == m[x]
    ensures SubtreesOf(m', cs, rank, top) == SubtreesOf(m, cs, rank, top)
    decreases top + 1, 0, |cs|
  {
    if cs != [] {
      SubtreeUnchanged(m, m', cs[0], rank);
      SubtreesOfUnchanged(m, m', cs[1..], rank, top);
    }
  }
}

=== FILE: expansion.dfy ===
/** Growing one node with the model's suggestions: every suggested concept
    whose upper-cased key is not in the map yet becomes a new node around the
    expanded node, and the expanded node's record is rewritten to list it. */
module Expansion {
  import opened Base
  import opened Seqs
  import opened Text
  import opened Geometry
  import opened Store
  import opened Extraction
  import opened Generation

  /** The keys that get a node, in order: those not known yet, each once. */
  function FreshOf(known: set<string>, keys: seq<string>): (r: seq<string>)
    ensures forall k :: k in r <==> k in keys && k !in known
    decreases |keys|
  {
    if keys == [] then []
    else if keys[0] in known then FreshOf(known, keys[1..])
    else [keys[0]] + FreshOf(known + {keys[0]}, keys[1..])
  }

  /** What every node added by an expansion looks like: a leaf under the
      expanded node, inside the canvas region, with a palette colour. */
  predicate NewLeaf(n: Node, nodeKey: string) {
    && n.parent == Some(nodeKey) && n.children == []
    && n.color in NodeColors
    && 50.0 <= n.x <= 850.0 && 50.0 <= n.y <= 550.0
  }

  /** The record of the `i`-th of `count` suggestions. `parent` is the record
      of the expanded node as it was read before the loop, `base` the random
      start angle, `now(i)` what `Date.now()` returns on the `i`-th turn. */
  function ExpNode(parent: Node, nodeKey: string, i: nat, count: nat, base: real,
                   trig: real -> Vec, pick: nat -> nat, now: nat -> nat): (n: Node)
    requires i < count
    ensures NewLeaf(n, nodeKey)
  {
    var d := trig(base + (i as real * 2.0 * Pi) / count as real);
    Node("exp_" + NatToString(now(i)) + "_" + NatToString(i),
         Clamp(parent.x + d.x * 120.0, 50.0, 850.0), Clamp(parent.y + d.y * 120.0, 50.0, 550.0),
         PickColor(pick(i)), Some(nodeKey), [])
  }

  /** One turn of the `forEach` for a key not in the map yet: its record is
      stored, then the snapshot `p` is written back under `nodeKey` with that
      key added to the children. */
  function ExpStep(g: Graph, nodeKey: string, p: Node, keys: seq<string>, i: nat,
                   base: real, trig: real -> Vec, pick: nat -> nat, now: nat -> nat): (r: Graph)
    requires Valid(g) && i < |keys| && nodeKey in g.nodes && keys[i] !in g.nodes
    ensures Valid(r) && r.order == g.order + [keys[i]]
    ensures r.nodes.Keys == g.nodes.Keys + {keys[i]}
    ensures forall k :: k in g.nodes && k != nodeKey ==> r.nodes[k] == g.nodes[k]
    ensures NewLeaf(r.nodes[keys[i]], nodeKey)
    ensures r.nodes[nodeKey] == p.(children := p.children + [keys[i]])
  {
    var g1 := Put(g, keys[i], ExpNode(p, nodeKey, i, |keys|, base, trig, pick, now));
    Put(g1, nodeKey, p.(children := p.children + [keys[i]]))
  }

  /** The `forEach` over the upper-cased suggestions `keys`, from the `i`-th
      on. `parent` is the snapshot of `nodes[nodeKey]`; reading its position
      when it is missing throws, which the model reports as `Err`. */
  function ExpandLoop(g: Graph, nodeKey: string, parent: Option<Node>, keys: seq<string>, i: nat,
                      base: real, trig: real -> Vec, pick: nat -> nat, now: nat -> nat): (r: Result<Graph>)
    requires Valid(g) && i <= |keys|
    requires parent.Some? ==> nodeKey in g.nodes
    ensures r.Err? <==> parent.None? && exists j :: i <= j < |keys| && keys[j] !in g.nodes
    ensures r.Err? ==> r.message == "Cannot read properties of undefined (reading 'x')"
    ensures r.Ok? ==> Valid(r.value) && (g.order != [] ==> Root(r.value) == Root(g))
    ensures r.Ok? ==> forall k :: k in r.value.nodes <==> k in g.nodes || k in keys[i..]
    ensures r.Ok? ==> forall k :: k in g.nodes && k != nodeKey ==> r.value.nodes[k] == g.nodes[k]
    ensures r.Ok? ==> forall k :: k in r.value.nodes && k !in g.nodes ==> NewLeaf(r.value.nodes[k], nodeKey)
    decreases |keys| - i
  {
    if i == |keys| then Ok(g)
    else if keys[i] in g.nodes then
      SliceCons(keys, i);
      ExpandLoop(g, nodeKey, parent, keys, i + 1, base, trig, pick, now)
    else match parent
      case None => Err("Cannot read properties of undefined (reading 'x')")
      case Some(p) =>
        SliceCons(keys, i);
        ExpandLoop(ExpStep(g, nodeKey, p, keys, i, base, trig, pick, now), nodeKey, parent, keys, i + 1, base, trig, pick, now)
  }

  /** The new nodes object for `nodeKey` and the parsed suggestions. */
  function Merge(g: Graph, nodeKey: string, concepts: seq<string>, base: real,
                 trig: real -> Vec, pick: nat -> nat, now: nat -> nat): (r: Result<Graph>)
    requires Valid(g)
    ensures r.Err? <==> nodeKey !in g.nodes && FreshOf(g.nodes.Keys, UpperAll(concepts)) != []
    ensures r.Ok? ==> Valid(r.value) && (g.order != [] ==> Root(r.value) == Root(g))
    ensures r.Ok? ==> forall k :: k in r.value.nodes <==> k in g.nodes || k in UpperAll(concepts)
    ensures r.Ok? ==> forall k :: k in g.nodes && k != nodeKey ==> r.value.nodes[k] == g.nodes[k]
    ensures r.Ok? ==> forall k :: k in r.value.nodes && k !in g.nodes ==> NewLeaf(r.value.nodes[k], nodeKey)
  {
    var keys := UpperAll(concepts);
    assert keys[0..] == keys;
    var r := ExpandLoop(g, nodeKey, if nodeKey in g.nodes then Some(g.nodes[nodeKey]) else None, keys, 0, base, trig, pick, now);
    assert FreshOf(g.nodes.Keys, keys) != [] <==> exists j :: 0 <= j < |keys| && keys[j] !in g.nodes by {
      if FreshOf(g.nodes.Keys, keys) != [] {
        var k := FreshOf(g.nodes.Keys, keys)[0];
        assert k in FreshOf(g.nodes.Keys, keys);
        assert k in keys;
        var j :| 0 <= j < |keys| && keys[j] == k;
      }
    }
    r
  }

  /** The body of the `try` in `expandNodeWithAI`: the new nodes object or the
      message of whatever was thrown. `parse` stands for `JSON.parse` and the
      array-of-strings shape the loop relies on. */
  function Expand(g: Graph, nodeKey: string, reply: Reply, parse: string -> Result<seq<string>>,
                  base: real, trig: real -> Vec, pick: nat -> nat, now: nat -> nat): (r: Result<Graph>)
    requires Valid(g)
    ensures !reply.Text? ==> r.Err? && r.message == CallModel(reply).message
    ensures reply.Text? && ExtractFragment(reply.body, '[', ']').None? ==> r == Err("INVALID EXPANSION RESPONSE")
    ensures r.Ok? <==>
      && reply.Text?
      && ExtractFragment(reply.body, '[', ']').Some?
      && parse(ExtractFragment(reply.body, '[', ']').value).Ok?
      && (nodeKey in g.nodes || FreshOf(g.nodes.Keys, UpperAll(parse(ExtractFragment(reply.body, '[', ']').value).value)) == [])
  {
    match CallModel(reply)
    case Err(m) => Err(m)
    case Ok(text) =>
      match ExtractFragment(text, '[', ']')
      case None => Err("INVALID EXPANSION RESPONSE")
      case Some(fragment) =>
        match parse(fragment)
        case Err(m) => Err(m)
        case Ok(concepts) => Merge(g, nodeKey, concepts, base, trig, pick, now)
  }

  // ----- What a successful expansion adds -----

  function Last(s: seq<string>): string
    requires s != []
  {
    s[|s| - 1]
  }

  /** Expanding a present node appends exactly the fresh keys, in suggestion
      order, and leaves the expanded node's record as the snapshot `p` with
      only the last fresh key added to its children. */
  lemma {:induction false} ExpandLoopExact(g: Graph, nodeKey: string, p: Node, keys: seq<string>, i: nat,
                                           base: real, trig: real -> Vec, pick: nat -> nat, now: nat -> nat)
    requires Valid(g) && i <= |keys| && nodeKey in g.nodes
    ensures var r := ExpandLoop(g, nodeKey, Some(p), keys, i, base, trig, pick, now);
      && r.Ok?
      && r.value.order == g.order + FreshOf(g.nodes.Keys, keys[i..])
      && (FreshOf(g.nodes.Keys, keys[i..]) == [] ==> r.value.nodes[nodeKey] == g.nodes[nodeKey])
      && (FreshOf(g.nodes.Keys, keys[i..]) != [] ==>
            r.value.nodes[nodeKey] == p.(children := p.children + [Last(FreshOf(g.nodes.Keys, keys[i..]))]))
    decreases |keys| - i
  {
    if i < |keys| {
      SliceCons(keys, i);
      if keys[i] in g.nodes {
        ExpandLoopExact(g, nodeKey, p, keys, i + 1, base, trig, pick, now);
      } else {
        var g2 := ExpStep(g, nodeKey, p, keys, i, base, trig, pick, now);
        ExpandLoopExact(g2, nodeKey, p, keys, i + 1, base, trig, pick, now);
        var rest := FreshOf(g.nodes.Keys + {keys[i]}, keys[i + 1..]);
        assert FreshOf(g.nodes.Keys, keys[i..]) == [keys[i]] + rest;
        SeqAssoc(g.order, [keys[i]], rest);
      }
    }
  }

  /** Each fresh key is listed once. */
  lemma {:induction false} FreshOfNoDups(known: set<string>, keys: seq<string>)
    ensures NoDups(FreshOf(known, keys))
    decreases |keys|
  {
    if keys != [] {
      FreshOfNoDups(known, keys[1..]);
      FreshOfNoDups(known + {keys[0]}, keys[1..]);
      if keys[0] !in known {
        ConsNoDups(keys[0], FreshOf(known + {keys[0]}, keys[1..]));
      }
    }
  }

  /** Expanding a node that is present succeeds, appends exactly the keys not
      yet in the map (duplicates in the batch and the node itself included
      among the skipped ones), and rewrites the node's record from the snapshot
      taken before the loop, adding only the last fresh key to its children. */
  lemma MergeExact(g: Graph, nodeKey: string, concepts: seq<string>, base: real,
                   trig: real -> Vec, pick: nat -> nat, now: nat -> nat)
    requires Valid(g) && nodeKey in g.nodes
    ensures var r := Merge(g, nodeKey, concepts, base, trig, pick, now);
      var added := FreshOf(g.nodes.Keys, UpperAll(concepts));
      && r.Ok?
      && r.value.order == g.order + added
      && nodeKey !in added && NoDups(added)
      && (added == [] ==> r.value == g)
      && (added != [] ==> r.value.nodes[nodeKey] == g.nodes[nodeKey].(children := g.nodes[nodeKey].children + [Last(added)]))
  {
    var keys := UpperAll(concepts);
    assert keys[0..] == keys;
    ExpandLoopExact(g, nodeKey, g.nodes[nodeKey], keys, 0, base, trig, pick, now);
    FreshOfNoDups(g.nodes.Keys, keys);
    var r := Merge(g, nodeKey, concepts, base, trig, pick, now);
    if FreshOf(g.nodes.Keys, keys) == [] {
      assert r.value.nodes == g.nodes;
    }
  }

  /** The effect of reading the parent once before the loop: when two or more
      concepts are new, every new key but the last has the node as its parent
      and yet is listed among the node's children only if it already was, so
      a new key that was not listed before breaks the parent/children match. */
  lemma ExpandListsOnlyLast(g: Graph, nodeKey: string, concepts: seq<string>, base: real,
                            trig: real -> Vec, pick: nat -> nat, now: nat -> nat)
    requires Valid(g) && nodeKey in g.nodes
    requires |FreshOf(g.nodes.Keys, UpperAll(concepts))| >= 2
    ensures var r := Merge(g, nodeKey, concepts, base, trig, pick, now);
      var added := FreshOf(g.nodes.Keys, UpperAll(concepts));
      && r.Ok?
      && (forall t :: 0 <= t < |added| - 1 ==>
            && added[t] in r.value.nodes && r.value.nodes[added[t]].parent == Some(nodeKey)
            && (added[t] in r.value.nodes[nodeKey].children <==> added[t] in g.nodes[nodeKey].children))
      && (added[0] !in g.nodes[nodeKey].children ==> !Linked(r.value))
  {
    MergeExact(g, nodeKey, concepts, base, trig, pick, now);
    var r := Merge(g, nodeKey, concepts, base, trig, pick, now);
    var added := FreshOf(g.nodes.Keys, UpperAll(concepts));
    forall t | 0 <= t < |added| - 1
      ensures added[t] in r.value.nodes && r.value.nodes[added[t]].parent == Some(nodeKey)
    {
      assert added[t] in added;
      assert NewLeaf(r.value.nodes[added[t]], nodeKey);
    }
    if added[0] !in g.nodes[nodeKey].children {
      assert added[0] != Last(added);
      assert added[0] !in r.value.nodes[nodeKey].children;
    }
  }
}

=== FILE: extraction.dfy ===
/** Pulling the JSON fragment out of a free-text model reply with the greedy
    regular expressions `/\{[\s\S]*\}/` (generation) and `/\[[\s\S]*\]/`
    (expansion). */
module Extraction {
  import opened Base

  /** Position of the first `c`. */
  function FirstIndex(s: string, c: char): (r: Option<nat>)
    ensures r.None? ==> c !in s
    ensures r.Some? ==> r.value < |s| && s[r.value] == c && forall k :: 0 <= k < r.value ==> s[k] != c
  {
    if s == [] then None
    else if s[0] == c then Some(0)
    else match FirstIndex(s[1..], c)
      case None => None
      case Some(i) => Some(i + 1)
  }

  /** Position of the last `c`. */
  function LastIndex(s: string, c: char): (r: Option<nat>)
    ensures r.None? ==> c !in s
    ensures r.Some? ==> r.value < |s| && s[r.value] == c && forall k :: r.value < k < |s| ==> s[k] != c
  {
    if s == [] then None
    else if s[|s| - 1] == c then Some(|s| - 1)
    else LastIndex(s[..|s| - 1], c)
  }

  /** The match of `open [\s\S]* close`: the engine anchors at the first `open`
      and the greedy star backs off to the last `close` after it. A later
      `open` cannot help, because every `close` after it also follows the first. */
  function ExtractFragment(s: string, open: char, close: char): (r: Option<string>)
    ensures r.Some? <==> exists i, j :: 0 <= i < j < |s| && s[i] == open && s[j] == close
    ensures r.Some? ==> exists i, j ::
      && 0 <= i < j < |s| && r.value == s[i..j + 1]
      && s[i] == open && s[j] == close
      && (forall k :: 0 <= k < i ==> s[k] != open)
      && (forall k :: j < k < |s| ==> s[k] != close)
  {
    match (FirstIndex(s, open), LastIndex(s, close))
    case (Some(i), Some(j)) => if i < j then Some(s[i..j + 1]) else None
    case _ => None
  }
}

=== FILE: generation.dfy ===
/** Building a whole mind map from the model's answer for a topic: a root for
    the topic, one node per main concept on a ring around it, and the
    sub-concepts of each main concept fanned out around that node. */
module Generation {
  import opened Base
  import opened Seqs
  import opened Text
  import opened Geometry
  import opened Store
  import opened Extraction

  /** The answer after `JSON.parse` and the shape the code relies on:
      `{mainConcepts: [...], subConcepts: {concept: [...]}}`, the sub-concept
      lists keyed by the main concept exactly as it was written. */
  datatype Plan = Plan(mainConcepts: seq<string>, subConcepts: map<string, seq<string>>)

  /** What the request to the model came back with: a failure of `fetch` (or of
      reading the candidate text), a non-2xx status, or the reply text. */
  datatype Reply = Failed(message: string) | HttpError(status: nat) | Text(body: string)

  /** `Math.PI`. */
  const Pi: real := 3.141592653589793

  /** `concepts.map(c => c.toUpperCase())`. */
  function UpperAll(xs: seq<string>): (r: seq<string>)
    ensures |r| == |xs|
    ensures forall i :: 0 <= i < |xs| ==> r[i] == Upper(xs[i])
  {
    seq(|xs|, i requires 0 <= i < |xs| => Upper(xs[i]))
  }

  /** The sub-concepts of the `i`-th main concept; a main concept the answer
      gives no list for has none. */
  function SubsOf(plan: Plan, i: nat): seq<string>
    requires i < |plan.mainConcepts|
  {
    var c := plan.mainConcepts[i];
    if c in plan.subConcepts then plan.subConcepts[c] else []
  }

  /** The keys of the sub-concepts of the `i`-th main concept. */
  function SubKeys(plan: Plan, i: nat): seq<string>
    requires i < |plan.mainConcepts|
  {
    UpperAll(SubsOf(plan, i))
  }

  /** The keys written from the `i`-th main concept on, in writing order: each
      main concept followed by its sub-concepts. */
  function MainKeysFrom(plan: Plan, i: nat): seq<string>
    requires i <= |plan.mainConcepts|
    decreases |plan.mainConcepts| - i
  {
    if i == |plan.mainConcepts| then []
    else [Upper(plan.mainConcepts[i])] + SubKeys(plan, i) + MainKeysFrom(plan, i + 1)
  }

  lemma MainKeysStep(plan: Plan, i: nat)
    requires i < |plan.mainConcepts|
    ensures forall k :: k in MainKeysFrom(plan, i) <==>
      k == Upper(plan.mainConcepts[i]) || k in SubKeys(plan, i) || k in MainKeysFrom(plan, i + 1)
  {
  }

  lemma MainKeysUnfold(plan: Plan, i: nat)
    requires i < |plan.mainConcepts|
    ensures MainKeysFrom(plan, i) == [Upper(plan.mainConcepts[i])] + SubKeys(plan, i) + MainKeysFrom(plan, i + 1)
  {
  }

  /** Every key written for a topic, root first. */
  function AllKeys(topicKey: string, plan: Plan): seq<string> {
    [topicKey] + MainKeysFrom(plan, 0)
  }

  /** The number of sub-concepts of the main concepts from the `i`-th on. */
  function SubTotalFrom(plan: Plan, i: nat): nat
    requires i <= |plan.mainConcepts|
    decreases |plan.mainConcepts| - i
  {
    if i == |plan.mainConcepts| then 0 else |SubsOf(plan, i)| + SubTotalFrom(plan, i + 1)
  }

  /** The angle of the `i`-th of `n` main concepts: evenly spread around the root. */
  function MainAngle(i: nat, n: nat): real
    requires 0 < n
  {
    (i as real * 2.0 * Pi) / n as real
  }

  /** The angle of the `j`-th of `m` sub-concepts: 0.4 rad apart, centred on
      the angle of their main concept. */
  function SubAngle(i: nat, n: nat, j: nat, m: nat): real
    requires 0 < n
  {
    MainAngle(i, n) + (j as real - m as real / 2.0 + 0.5) * 0.4
  }

  /** Every node lies inside the region the generator keeps nodes in. */
  predicate OnCanvas(g: Graph) {
    forall k :: k in g.nodes ==> 50.0 <= g.nodes[k].x <= 850.0 && 50.0 <= g.nodes[k].y <= 550.0
  }

  /** The root record of the topic: no parent, the main concepts as children. */
  function RootNode(plan: Plan): Node {
    Node("root", 400.0, 300.0, "bg-pink-500", None, UpperAll(plan.mainConcepts))
  }

  /** The record of the `i`-th main concept. `trig` gives `(Math.cos(a), Math.sin(a))`
      and `pick(i)` the random colour index drawn for it. */
  function MainNode(topicKey: string, plan: Plan, i: nat, trig: real -> Vec, pick: nat -> nat): (n: Node)
    requires i < |plan.mainConcepts|
    ensures 100.0 <= n.x <= 700.0 && 100.0 <= n.y <= 500.0
    ensures n.parent == Some(topicKey) && n.children == SubKeys(plan, i) && n.color in NodeColors
  {
    var d := trig(MainAngle(i, |plan.mainConcepts|));
    Node("main_" + NatToString(i),
         Clamp(400.0 + d.x * 200.0, 100.0, 700.0), Clamp(300.0 + d.y * 200.0, 100.0, 500.0),
         PickColor(pick(i)), Some(topicKey), SubKeys(plan, i))
  }

  /** The record of the `j`-th of the `m` sub-concepts of the `i`-th of `n`
      main concepts, placed around the record `anchor` currently stored under
      the main concept's key. */
  function SubNode(anchor: Node, mainKey: string, i: nat, n: nat, j: nat, m: nat, trig: real -> Vec): (r: Node)
    requires 0 < n
    ensures 50.0 <= r.x <= 850.0 && 50.0 <= r.y <= 550.0
    ensures r.parent == Some(mainKey) && r.children == [] && r.color == "bg-gray-300"
  {
    var d := trig(SubAngle(i, n, j, m));
    Node("sub_" + NatToString(i) + "_" + NatToString(j),
         Clamp(anchor.x + d.x * 120.0, 50.0, 850.0), Clamp(anchor.y + d.y * 120.0, 50.0, 550.0),
         "bg-gray-300", Some(mainKey), [])
  }

  /** Storing a record that lies inside the region keeps every node inside it. */
  lemma PutOnCanvas(g: Graph, k: string, n: Node)
    requires Valid(g) && OnCanvas(g)
    requires 50.0 <= n.x <= 850.0 && 50.0 <= n.y <= 550.0
    ensures OnCanvas(Put(g, k, n))
  {
  }

  /** The sub-concept loop of the `i`-th of `n` main concepts over the
      sub-concept keys `keys`, from the `j`-th on. Each step rereads the main
      concept's record, as the source does. */
  function BuildSubs(g: Graph, mainKey: string, keys: seq<string>, i: nat, n: nat, j: nat, trig: real -> Vec): (r: Graph)
    requires Valid(g) && mainKey in g.nodes && 0 < n && j <= |keys|
    ensures Valid(r) && mainKey in r.nodes
    ensures forall k :: k in r.nodes <==> k in g.nodes || k in keys[j..]
    ensures g.order != [] ==> Root(r) == Root(g)
    ensures OnCanvas(g) ==> OnCanvas(r)
    decreases |keys| - j
  {
    if j == |keys| then g
    else
      var g1 := Put(g, keys[j], SubNode(g.nodes[mainKey], mainKey, i, n, j, |keys|, trig));
      SliceCons(keys, j);
      assert OnCanvas(g) ==> OnCanvas(g1) by {
        if OnCanvas(g) {
          PutOnCanvas(g, keys[j], SubNode(g.nodes[mainKey], mainKey, i, n, j, |keys|, trig));
        }
      }
      BuildSubs(g1, mainKey, keys, i, n, j + 1, trig)
  }

  /** One turn of the main-concept loop: the `i`-th main concept's record,
      then its sub-concepts. */
  function MainStep(g: Graph, topicKey: string, plan: Plan, i: nat, trig: real -> Vec, pick: nat -> nat): (r: Graph)
    requires Valid(g) && i < |plan.mainConcepts|
    ensures Valid(r)
    ensures forall k :: k in r.nodes <==> k in g.nodes || k == Upper(plan.mainConcepts[i]) || k in SubKeys(plan, i)
    ensures g.order != [] ==> Root(r) == Root(g)
    ensures OnCanvas(g) ==> OnCanvas(r)
  {
    var key := Upper(plan.mainConcepts[i]);
    var keys := SubKeys(plan, i);
    var g1 := Put(g, key, MainNode(topicKey, plan, i, trig, pick));
    assert keys[0..] == keys;
    assert OnCanvas(g) ==> OnCanvas(g1) by {
      if OnCanvas(g) {
        PutOnCanvas(g, key, MainNode(topicKey, plan, i, trig, pick));
      }
    }
    BuildSubs(g1, key, keys, i, |plan.mainConcepts|, 0, trig)
  }

  /** The main-concept loop, from the `i`-th main concept on. */
  function BuildMains(g: Graph, topicKey: string, plan: Plan, i: nat, trig: real -> Vec, pick: nat -> nat): (r: Graph)
    requires Valid(g) && i <= |plan.mainConcepts|
    ensures Valid(r)
    ensures forall k :: k in r.nodes <==> k in g.nodes || k in MainKeysFrom(plan, i)
    ensures g.order != [] ==> Root(r) == Root(g)
    ensures OnCanvas(g) ==> OnCanvas(r)
    decreases |plan.mainConcepts| - i
  {
    if i == |plan.mainConcepts| then g
    else
      MainKeysStep(plan, i);
      BuildMains(MainStep(g, topicKey, plan, i, trig, pick), topicKey, plan, i + 1, trig, pick)
  }

  /** The nodes object `generateMindMap` assembles for the topic key. */
  function Build(topicKey: string, plan: Plan, trig: real -> Vec, pick: nat -> nat): (r: Graph)
    ensures Valid(r) && Root(r) == Some(topicKey)
    ensures forall k :: k in r.nodes <==> k in AllKeys(topicKey, plan)
    ensures OnCanvas(r)
  {
    var g0 := Put(Empty, topicKey, RootNode(plan));
    assert g0.order == [topicKey];
    BuildMains(g0, topicKey, plan, 0, trig, pick)
  }

  /** `callGeminiAPI` once the key is known to be set: every failure is rethrown
      with the `GEMINI API ERROR: ` prefix. */
  function CallModel(reply: Reply): (r: Result<string>)
    ensures r.Ok? <==> reply.Text?
    ensures reply.Text? ==> r.value == reply.body
    ensures reply.Failed? ==> r.message == "GEMINI API ERROR: " + reply.message
    ensures reply.HttpError? ==> r.message == "GEMINI API ERROR: API ERROR: " + NatToString(reply.status)
  {
    match reply
    case Failed(m) => Err("GEMINI API ERROR: " + m)
    case HttpError(s) => Err("GEMINI API ERROR: " + "API ERROR: " + NatToString(s))
    case Text(t) => Ok(t)
  }

  /** The body of the `try` in `generateMindMap`: the new nodes object or the
      message of whatever was thrown. `parse` stands for `JSON.parse` together
      with the reads of `mainConcepts` and `subConcepts`, which throw on an
      answer of the wrong shape. */
  function Generate(topicInput: string, reply: Reply, parse: string -> Result<Plan>,
                    trig: real -> Vec, pick: nat -> nat): (r: Result<Graph>)
    ensures reply.Text? && ExtractFragment(reply.body, '{', '}').None? ==> r == Err("INVALID API RESPONSE FORMAT")
    ensures !reply.Text? ==> r.Err? && r.message == CallModel(reply).message
    ensures r.Ok? <==>
      && reply.Text?
      && ExtractFragment(reply.body, '{', '}').Some?
      && parse(ExtractFragment(reply.body, '{', '}').value).Ok?
    ensures r.Ok? ==>
      var plan := parse(ExtractFragment(reply.body, '{', '}').value).value;
      && Valid(r.value) && Root(r.value) == Some(Upper(topicInput)) && OnCanvas(r.value)
      && (forall k :: k in r.value.nodes <==> k in AllKeys(Upper(topicInput), plan))
  {
    match CallModel(reply)
    case Err(m) => Err(m)
    case Ok(text) =>
      match ExtractFragment(text, '{', '}')
      case None => Err("INVALID API RESPONSE FORMAT")
      case Some(fragment) =>
        match parse(fragment)
        case Err(m) => Err(m)
        case Ok(plan) => Ok(Build(Upper(topicInput), plan, trig, pick))
  }

  // ----- Exact contents when every concept gets its own key -----

  /** With fresh keys the sub-concept loop appends them in order, keeps every
      earlier record, and stores each sub-concept around the record the main
      concept had when the loop started. */
  lemma {:induction false} BuildSubsExact(g: Graph, mainKey: string, keys: seq<string>, i: nat, n: nat, j: nat, trig: real -> Vec)
    requires Valid(g) && mainKey in g.nodes && 0 < n && j <= |keys|
    requires Fresh(g.order, keys[j..])
    ensures var r := BuildSubs(g, mainKey, keys, i, n, j, trig);
      && r.order == g.order + keys[j..]
      && (forall k :: k in g.nodes ==> r.nodes[k] == g.nodes[k])
      && (forall j' :: j <= j' < |keys| ==> r.nodes[keys[j']] == SubNode(g.nodes[mainKey], mainKey, i, n, j', |keys|, trig))
    decreases |keys| - j
  {
    if j < |keys| {
      var g1 := Put(g, keys[j], SubNode(g.nodes[mainKey], mainKey, i, n, j, |keys|, trig));
      SliceCons(keys, j);
      assert keys[j] !in g.nodes;
      BuildSubsExact(g1, mainKey, keys, i, n, j + 1, trig);
      SeqAssoc(g.order, [keys[j]], keys[j + 1..]);
    }
  }

  /** With fresh keys one turn of the main-concept loop appends them in order,
      keeps every earlier record, and stores the main record and the
      sub-concept records placed around it. */
  lemma MainStepExact(g: Graph, topicKey: string, plan: Plan, i: nat, trig: real -> Vec, pick: nat -> nat)
    requires Valid(g) && i < |plan.mainConcepts|
    requires Upper(plan.mainConcepts[i]) !in g.order
    requires Fresh(g.order + [Upper(plan.mainConcepts[i])], SubKeys(plan, i))
    ensures var r := MainStep(g, topicKey, plan, i, trig, pick);
      && r.order == g.order + [Upper(plan.mainConcepts[i])] + SubKeys(plan, i)
      && (forall k :: k in g.nodes ==> r.nodes[k] == g.nodes[k])
      && r.nodes[Upper(plan.mainConcepts[i])] == MainNode(topicKey, plan, i, trig, pick)
      && (forall j :: 0 <= j < |SubKeys(plan, i)| ==> r.nodes[SubKeys(plan, i)[j]] == SubNodeOf(topicKey, plan, i, j, trig, pick))
  {
    var key := Upper(plan.mainConcepts[i]);
    var keys := SubKeys(plan, i);
    var g1 := Put(g, key, MainNode(topicKey, plan, i, trig, pick));
    assert keys[0..] == keys;
    BuildSubsExact(g1, key, keys, i, |plan.mainConcepts|, 0, trig);
  }

  /** Freshness of the whole main-concept loop, split at its first turn. */
  lemma MainsFreshStep(o: seq<string>, plan: Plan, i: nat)
    requires i < |plan.mainConcepts|
    requires Fresh(o, MainKeysFrom(plan, i))
    ensures Upper(plan.mainConcepts[i]) !in o
    ensures Fresh(o + [Upper(plan.mainConcepts[i])], SubKeys(plan, i))
    ensures Fresh(o + [Upper(plan.mainConcepts[i])] + SubKeys(plan, i), MainKeysFrom(plan, i + 1))
  {
    var key := Upper(plan.mainConcepts[i]);
    var keys := SubKeys(plan, i);
    MainKeysUnfold(plan, i);
    FreshAppend(o, [key] + keys, MainKeysFrom(plan, i + 1));
    FreshAppend(o, [key], keys);
    SeqAssoc(o, [key], keys);
  }

  /** One turn of a fresh main-concept loop leaves the keys of the later turns fresh. */
  lemma MainStepKeepsFresh(g: Graph, topicKey: string, plan: Plan, i: nat, trig: real -> Vec, pick: nat -> nat)
    requires Valid(g) && i < |plan.mainConcepts|
    requires Fresh(g.order, MainKeysFrom(plan, i))
    ensures Fresh(MainStep(g, topicKey, plan, i, trig, pick).order, MainKeysFrom(plan, i + 1))
  {
    MainsFreshStep(g.order, plan, i);
    MainStepExact(g, topicKey, plan, i, trig, pick);
  }

  /** One turn of a fresh main-concept loop keeps every earlier record. */
  lemma MainStepFrame(g: Graph, topicKey: string, plan: Plan, i: nat, trig: real -> Vec, pick: nat -> nat)
    requires Valid(g) && i < |plan.mainConcepts|
    requires Fresh(g.order, MainKeysFrom(plan, i))
    ensures var r := MainStep(g, topicKey, plan, i, trig, pick);
      forall k :: k in g.nodes ==> r.nodes[k] == g.nodes[k]
  {
    MainsFreshStep(g.order, plan, i);
    MainStepExact(g, topicKey, plan, i, trig, pick);
  }

  /** With fresh keys the main-concept loop appends them in order. */
  lemma {:induction false} BuildMainsOrder(g: Graph, topicKey: string, plan: Plan, i: nat, trig: real -> Vec, pick: nat -> nat)
    requires Valid(g) && i <= |plan.mainConcepts|
    requires Fresh(g.order, MainKeysFrom(plan, i))
    ensures BuildMains(g, topicKey, plan, i, trig, pick).order == g.order + MainKeysFrom(plan, i)
    decreases |plan.mainConcepts| - i
  {
    if i < |plan.mainConcepts| {
      var key := Upper(plan.mainConcepts[i]);
      var keys := SubKeys(plan, i);
      MainsFreshStep(g.order, plan, i);
      MainStepExact(g, topicKey, plan, i, trig, pick);
      BuildMainsOrder(MainStep(g, topicKey, plan, i, trig, pick), topicKey, plan, i + 1, trig, pick);
      MainKeysUnfold(plan, i);
      SeqAssoc(g.order, [key] + keys, MainKeysFrom(plan, i + 1));
      SeqAssoc(g.order, [key], keys);
    }
  }

  /** With fresh keys the main-concept loop keeps every earlier record. */
  lemma {:induction false} BuildMainsFrame(g: Graph, topicKey: string, plan: Plan, i: nat, trig: real -> Vec, pick: nat -> nat)
    requires Valid(g) && i <= |plan.mainConcepts|
    requires Fresh(g.order, MainKeysFrom(plan, i))
    ensures var r := BuildMains(g, topicKey, plan, i, trig, pick);
      forall k :: k in g.nodes ==> r.nodes[k] == g.nodes[k]
    decreases |plan.mainConcepts| - i
  {
    if i < |plan.mainConcepts| {
      var g2 := MainStep(g, topicKey, plan, i, trig, pick);
      MainStepKeepsFresh(g, topicKey, plan, i, trig, pick);
      MainStepFrame(g, topicKey, plan, i, trig, pick);
      BuildMainsFrame(g2, topicKey, plan, i + 1, trig, pick);
    }
  }

  /** With fresh keys the main-concept loop stores the record of the
      `t`-th main concept exactly as the source builds it. */
  lemma {:induction false} BuildMainsRecord(g: Graph, topicKey: string, plan: Plan, i: nat, t: nat, trig: real -> Vec, pick: nat -> nat)
    requires Valid(g) && i <= t < |plan.mainConcepts|
    requires Fresh(g.order, MainKeysFrom(plan, i))
    ensures var r := BuildMains(g, topicKey, plan, i, trig, pick);
      Upper(plan.mainConcepts[t]) in r.nodes && r.nodes[Upper(plan.mainConcepts[t])] == MainNode(topicKey, plan, t, trig, pick)
    decreases t - i
  {
    if i == t {
      FirstMainRecord(g, topicKey, plan, i, trig, pick);
    } else {
      MainStepKeepsFresh(g, topicKey, plan, i, trig, pick);
      BuildMainsRecord(MainStep(g, topicKey, plan, i, trig, pick), topicKey, plan, i + 1, t, trig, pick);
    }
  }

  /** The record of the first main concept of a fresh loop survives the rest of the loop. */
  lemma FirstMainRecord(g: Graph, topicKey: string, plan: Plan, i: nat, trig: real -> Vec, pick: nat -> nat)
    requires Valid(g) && i < |plan.mainConcepts|
    requires Fresh(g.order, MainKeysFrom(plan, i))
    ensures var r := BuildMains(g, topicKey, plan, i, trig, pick);
      Upper(plan.mainConcepts[i]) in r.nodes && r.nodes[Upper(plan.mainConcepts[i])] == MainNode(topicKey, plan, i, trig, pick)
  {
    var g2 := MainStep(g, topicKey, plan, i, trig, pick);
    MainsFreshStep(g.order, plan, i);
    MainStepExact(g, topicKey, plan, i, trig, pick);
    BuildMainsFrame(g2, topicKey, plan, i + 1, trig, pick);
  }

  /** With fresh keys the main-concept loop stores the sub-concept records of
      the `t`-th main concept exactly as the source builds them, each placed
      around its main concept's record. */
  lemma {:induction false} BuildMainsSubRecords(g: Graph, topicKey: string, plan: Plan, i: nat, t: nat, trig: real -> Vec, pick: nat -> nat)
    requires Valid(g) && i <= t < |plan.mainConcepts|
    requires Fresh(g.order, MainKeysFrom(plan, i))
    ensures var r := BuildMains(g, topicKey, plan, i, trig, pick);
      SubRecordsAt(r, topicKey, plan, t, trig, pick)
    decreases t - i
  {
    if i == t {
      FirstSubRecords(g, topicKey, plan, i, trig, pick);
    } else {
      MainStepKeepsFresh(g, topicKey, plan, i, trig, pick);
      BuildMainsSubRecords(MainStep(g, topicKey, plan, i, trig, pick), topicKey, plan, i + 1, t, trig, pick);
    }
  }

  /** The sub-concept records of the first main concept of a fresh loop
      survive the rest of the loop. */
  lemma FirstSubRecords(g: Graph, topicKey: string, plan: Plan, i: nat, trig: real -> Vec, pick: nat -> nat)
    requires Valid(g) && i < |plan.mainConcepts|
    requires Fresh(g.order, MainKeysFrom(plan, i))
    ensures var r := BuildMains(g, topicKey, plan, i, trig, pick);
      SubRecordsAt(r, topicKey, plan, i, trig, pick)
  {
    var g2 := MainStep(g, topicKey, plan, i, trig, pick);
    MainsFreshStep(g.order, plan, i);
    MainStepExact(g, topicKey, plan, i, trig, pick);
    BuildMainsFrame(g2, topicKey, plan, i + 1, trig, pick);
  }

  /** `r` stores every sub-concept of the `t`-th main concept under its key,
      placed around the main concept's own record. */
  predicate SubRecordsAt(r: Graph, topicKey: string, plan: Plan, t: nat, trig: real -> Vec, pick: nat -> nat)
    requires t < |plan.mainConcepts|
  {
    forall j :: 0 <= j < |SubKeys(plan, t)| ==>
      SubKeys(plan, t)[j] in r.nodes && r.nodes[SubKeys(plan, t)[j]] == SubNodeOf(topicKey, plan, t, j, trig, pick)
  }

  /** The record of the `j`-th sub-concept of the `i`-th main concept when
      every key is distinct: placed around the main concept's own record. */
  function SubNodeOf(topicKey: string, plan: Plan, i: nat, j: nat, trig: real -> Vec, pick: nat -> nat): Node
    requires i < |plan.mainConcepts|
  {
    SubNode(MainNode(topicKey, plan, i, trig, pick), Upper(plan.mainConcepts[i]), i, |plan.mainConcepts|, j, |SubKeys(plan, i)|, trig)
  }

  /** The nodes object for distinct keys, record by record. */
  lemma BuildExact(topicKey: string, plan: Plan, trig: real -> Vec, pick: nat -> nat)
    requires NoDups(AllKeys(topicKey, plan))
    ensures var r := Build(topicKey, plan, trig, pick);
      && r.order == AllKeys(topicKey, plan)
      && r.nodes[topicKey] == RootNode(plan)
      && (forall i :: 0 <= i < |plan.mainConcepts| ==>
            Upper(plan.mainConcepts[i]) in r.nodes && r.nodes[Upper(plan.mainConcepts[i])] == MainNode(topicKey, plan, i, trig, pick))
      && (forall i, j :: 0 <= i < |plan.mainConcepts| && 0 <= j < |SubKeys(plan, i)| ==>
            SubKeys(plan, i)[j] in r.nodes && r.nodes[SubKeys(plan, i)[j]] == SubNodeOf(topicKey, plan, i, j, trig, pick))
  {
    var g0 := Put(Empty, topicKey, RootNode(plan));
    assert g0.order == [topicKey];
    NoDupsFresh([topicKey], MainKeysFrom(plan, 0));
    BuildMainsOrder(g0, topicKey, plan, 0, trig, pick);
    BuildMainsFrame(g0, topicKey, plan, 0, trig, pick);
    forall t | 0 <= t < |plan.mainConcepts|
      ensures var r := Build(topicKey, plan, trig, pick);
        Upper(plan.mainConcepts[t]) in r.nodes && r.nodes[Upper(plan.mainConcepts[t])] == MainNode(topicKey, plan, t, trig, pick)
    {
      BuildMainsRecord(g0, topicKey, plan, 0, t, trig, pick);
    }
    forall t, j | 0 <= t < |plan.mainConcepts| && 0 <= j < |SubKeys(plan, t)|
      ensures var r := Build(topicKey, plan, trig, pick);
        SubKeys(plan, t)[j] in r.nodes && r.nodes[SubKeys(plan, t)[j]] == SubNodeOf(topicKey, plan, t, j, trig, pick)
    {
      BuildMainsSubRecords(g0, topicKey, plan, 0, t, trig, pick);
    }
  }

  // ----- Shape of a generated map -----

  /** Every key written after the root is some main concept's key or one of
      its sub-concept keys. */
  lemma {:induction false} MainKeysFromCases(plan: Plan, i: nat, k: string)
    requires i <= |plan.mainConcepts| && k in MainKeysFrom(plan, i)
    ensures exists t :: i <= t < |plan.mainConcepts| && (k == Upper(plan.mainConcepts[t]) || k in SubKeys(plan, t))
    decreases |plan.mainConcepts| - i
  {
    MainKeysUnfold(plan, i);
    if k != Upper(plan.mainConcepts[i]) && k !in SubKeys(plan, i) {
      MainKeysFromCases(plan, i + 1, k);
    }
  }

  lemma {:induction false} MainKeysFromLength(plan: Plan, i: nat)
    requires i <= |plan.mainConcepts|
    ensures |MainKeysFrom(plan, i)| == (|plan.mainConcepts| - i) + SubTotalFrom(plan, i)
    decreases |plan.mainConcepts| - i
  {
    if i < |plan.mainConcepts| {
      MainKeysUnfold(plan, i);
      MainKeysFromLength(plan, i + 1);
    }
  }

  /** With distinct keys the generated map is a tree hanging from the topic:
      every parent link is matched by the parent's child list, and there is
      one node for the topic, one per main concept and one per sub-concept. */
  lemma GeneratedTree(topicKey: string, plan: Plan, trig: real -> Vec, pick: nat -> nat)
    requires NoDups(AllKeys(topicKey, plan))
    ensures var r := Build(topicKey, plan, trig, pick);
      && Linked(r)
      && topicKey in r.nodes && r.nodes[topicKey].parent.None?
      && |r.nodes| == 1 + |plan.mainConcepts| + SubTotalFrom(plan, 0)
  {
    var r := Build(topicKey, plan, trig, pick);
    BuildExact(topicKey, plan, trig, pick);
    forall k | k in r.nodes && r.nodes[k].parent.Some?
      ensures r.nodes[k].parent.value in r.nodes && k in r.nodes[r.nodes[k].parent.value].children
    {
      if k != topicKey {
        MainKeysFromCases(plan, 0, k);
        var t :| 0 <= t < |plan.mainConcepts| && (k == Upper(plan.mainConcepts[t]) || k in SubKeys(plan, t));
        if k == Upper(plan.mainConcepts[t]) {
          assert UpperAll(plan.mainConcepts)[t] == k;
        } else {
          var j :| 0 <= j < |SubKeys(plan, t)| && SubKeys(plan, t)[j] == k;
          assert r.nodes[k] == SubNodeOf(topicKey, plan, t, j, trig, pick);
        }
      }
    }
    ValidSize(r);
    MainKeysFromLength(plan, 0);
  }

  /** With distinct keys every main concept sits in the inner box
      [100, 700] x [100, 500] with a colour from the palette, and every
      sub-concept is a grey leaf under its main concept. */
  lemma GeneratedLayout(topicKey: string, plan: Plan, trig: real -> Vec, pick: nat -> nat)
    requires NoDups(AllKeys(topicKey, plan))
    ensures var r := Build(topicKey, plan, trig, pick);
      && (forall t :: 0 <= t < |plan.mainConcepts| ==>
            Upper(plan.mainConcepts[t]) in r.nodes &&
            var n := r.nodes[Upper(plan.mainConcepts[t])];
            100.0 <= n.x <= 700.0 && 100.0 <= n.y <= 500.0 && n.color in NodeColors && n.parent == Some(topicKey))
      && (forall t, j :: 0 <= t < |plan.mainConcepts| && 0 <= j < |SubKeys(plan, t)| ==>
            SubKeys(plan, t)[j] in r.nodes &&
            var n := r.nodes[SubKeys(plan, t)[j]];
            n.color == "bg-gray-300" && n.children == [] && n.parent == Some(Upper(plan.mainConcepts[t])))
  {
    BuildExact(topicKey, plan, trig, pick);
  }
}

=== FILE: geometry.dfy ===
/** Canvas coordinates. Positions are reals; the trigonometric values the
    components compute with `Math.cos`/`Math.sin` enter the model as inputs. */
module Geometry {

  datatype Vec = Vec(x: real, y: real)

  function Min(a: real, b: real): real { if a <= b then a else b }

  function Max(a: real, b: real): real { if a >= b then a else b }

  /** `Math.max(lo, Math.min(v, hi))`: the coordinate clamp every placement and
      every drag applies. The lower bound wins when the bounds cross. */
  function Clamp(v: real, lo: real, hi: real): (r: real)
    ensures lo <= r
    ensures lo <= hi ==> r <= hi
    ensures lo <= v <= hi ==> r == v
    ensures r == lo || r == v || r == hi
    ensures v <= lo ==> r == lo
    ensures lo <= hi <= v ==> r == hi
  {
    Max(lo, Min(v, hi))
  }
}

=== FILE: interaction.dfy ===
/** The state of the mind-map generator component and what its event handlers
    do to it: submitting a topic, expanding a node, dragging, clicking,
    shift-click deletion and the buttons of the side panel. */
module Interaction {
  import opened Base
  import opened Text
  import opened Geometry
  import opened Store
  import opened Deletion
  import opened Extraction
  import opened Generation
  import opened Expansion

  /** One line of the side-panel chat. */
  datatype ChatMessage = ChatMessage(fromUser: bool, content: string)

  /** The component's state hooks that the handlers below read or write. */
  datatype Session = Session(
    graph: Graph,
    mapName: string,
    error: string,
    loading: bool,
    dragged: Option<string>,
    offset: Vec,
    selected: Option<string>,
    panelOpen: bool,
    chat: seq<ChatMessage>,
    aiResponse: string,
    expanding: Option<string>)

  /** The bounding box of the canvas element. */
  datatype Rect = Rect(left: real, top: real, width: real, height: real)

  const MissingKey: string := "PLEASE SET YOUR GEMINI API KEY IN THE CODE"

  /** JavaScript truthiness of a key held in a state slot: set and not "". */
  predicate Truthy(o: Option<string>) {
    o.Some? && o.value != ""
  }

  // ---------------------------------------------------------------------------
  // The initial state

  function Leaf(id: string, x: real, y: real, color: string): Node {
    Node(id, x, y, color, Some("MINDSCAPE"), [])
  }

  /** The placeholder map shown before anything is generated. */
  const InitialGraph: Graph := Graph(
    ["MINDSCAPE", "CREATE TOPIC", "TO START", "GENERATING"],
    map[
      "MINDSCAPE" := Node("root", 400.0, 300.0, "bg-pink-500", None, ["CREATE TOPIC", "TO START", "GENERATING"]),
      "CREATE TOPIC" := Leaf("create", 200.0, 200.0, "bg-green-400"),
      "TO START" := Leaf("start", 600.0, 200.0, "bg-blue-500"),
      "GENERATING" := Leaf("gen", 400.0, 500.0, "bg-yellow-400")])

  const InitialSession: Session := Session(
    InitialGraph, "MINDSCAPE - MIND MAP", "", false, None, Vec(0.0, 0.0),
    None, false, [], "", None)

  /** The placeholder lists each of its four keys once, MINDSCAPE first. */
  lemma InitialValid()
    ensures Valid(InitialSession.graph) && Root(InitialSession.graph) == Some("MINDSCAPE")
    ensures InitialSession.dragged.None? && InitialSession.selected.None? && InitialSession.expanding.None?
  {
    assert InitialGraph.order[0] == "MINDSCAPE";
  }

  /** In the placeholder only MINDSCAPE has no parent, and every parent link
      is mirrored in the parent's children. */
  lemma InitialLinked()
    ensures Linked(InitialGraph)
    ensures forall k :: k in InitialGraph.nodes ==> (InitialGraph.nodes[k].parent.None? <==> k == "MINDSCAPE")
  {
    var root := InitialGraph.nodes["MINDSCAPE"];
    forall k | k in InitialGraph.nodes && k != "MINDSCAPE"
      ensures InitialGraph.nodes[k].parent == Some("MINDSCAPE") && k in root.children
    {
      assert k == "CREATE TOPIC" || k == "TO START" || k == "GENERATING";
    }
  }

  /** The placeholder's children lists only ever descend, so it can be deleted from. */
  lemma InitialRanked()
    ensures Ranked(InitialGraph.nodes, map["MINDSCAPE" := 1, "CREATE TOPIC" := 0, "TO START" := 0, "GENERATING" := 0])
  {
  }

  // ---------------------------------------------------------------------------
  // Generation

  /** `generateMindMap(topicInput)`: a missing API key only sets the error;
      otherwise the error is cleared, the request made, and either the whole
      map and the title are replaced or the thrown message is shown. The
      loading flag is back to false either way. */
  function GenerateMap(s: Session, topicInput: string, keySet: bool, reply: Reply,
                       parse: string -> Result<Plan>, trig: real -> Vec, pick: nat -> nat): (r: Session)
    ensures r.(graph := s.graph, mapName := s.mapName, error := s.error, loading := s.loading) == s
    ensures !keySet ==> r.graph == s.graph && r.loading == s.loading && r.error == MissingKey
    ensures keySet ==> !r.loading
    ensures r.graph != s.graph || r.mapName != s.mapName ==> keySet && Generate(topicInput, reply, parse, trig, pick).Ok?
    ensures keySet && Generate(topicInput, reply, parse, trig, pick).Ok? ==>
      && r.error == "" && r.mapName == Upper(topicInput) + " - MIND MAP"
      && Valid(r.graph) && Root(r.graph) == Some(Upper(topicInput)) && OnCanvas(r.graph)
      && r.graph == Generate(topicInput, reply, parse, trig, pick).value
    ensures keySet && Generate(topicInput, reply, parse, trig, pick).Err? ==>
      r.graph == s.graph && r.error == Generate(topicInput, reply, parse, trig, pick).message
  {
    if !keySet then s.(error := MissingKey)
    else
      match Generate(topicInput, reply, parse, trig, pick)
      case Ok(g) => s.(graph := g, mapName := Upper(topicInput) + " - MIND MAP", error := "", loading := false)
      case Err(m) => s.(error := m, loading := false)
  }

  /** `handleSubmit`: a blank topic is ignored, any other is trimmed first. */
  function Submit(s: Session, topic: string, keySet: bool, reply: Reply,
                  parse: string -> Result<Plan>, trig: real -> Vec, pick: nat -> nat): (r: Session)
    ensures AllSpace(topic) ==> r == s
    ensures !AllSpace(topic) && keySet && Generate(Trim(topic), reply, parse, trig, pick).Ok? ==>
      && Root(r.graph) == Some(Upper(Trim(topic))) && r.error == ""
      && r.graph == Generate(Trim(topic), reply, parse, trig, pick).value
      && r.mapName == Upper(Trim(topic)) + " - MIND MAP"
    ensures !AllSpace(topic) && !keySet ==> r.graph == s.graph && r.error == MissingKey
    ensures !AllSpace(topic) && keySet && Generate(Trim(topic), reply, parse, trig, pick).Err? ==>
      r.graph == s.graph && r.error == Generate(Trim(topic), reply, parse, trig, pick).message
    ensures r.graph == s.graph || Valid(r.graph)
  {
    TrimEmptyIffBlank(topic);
    if Trim(topic) == [] then s
    else GenerateMap(s, Trim(topic), keySet, reply, parse, trig, pick)
  }

  // ---------------------------------------------------------------------------
  // Expansion

  /** The prefix of every message an expansion failure shows. */
  const ExpansionError: string := "EXPANSION ERROR: "

  /** `expandNodeWithAI(nodeKey)`: a missing API key only sets the error.
      Otherwise the node is marked as expanding, the merge replaces the map or
      its failure is reported with the `EXPANSION ERROR: ` prefix, and the
      mark is cleared on both paths. A successful expansion leaves an earlier
      error message in place. */
  function ExpandSession(s: Session, nodeKey: string, keySet: bool, reply: Reply,
                         parse: string -> Result<seq<string>>, base: real,
                         trig: real -> Vec, pick: nat -> nat, now: nat -> nat): (r: Session)
    requires Valid(s.graph)
    ensures Valid(r.graph)
    ensures r.(graph := s.graph, error := s.error, expanding := s.expanding) == s
    ensures !keySet ==> r.graph == s.graph && r.expanding == s.expanding && r.error == MissingKey
    ensures keySet ==> r.expanding.None?
    ensures keySet && reply.Text? && ExtractFragment(reply.body, '[', ']').None? ==>
      r.graph == s.graph && r.error == ExpansionError + "INVALID EXPANSION RESPONSE"
    ensures keySet && !reply.Text? ==>
      r.graph == s.graph && r.error == ExpansionError + CallModel(reply).message
    ensures keySet && reply.Text? && ExtractFragment(reply.body, '[', ']').Some?
            && parse(ExtractFragment(reply.body, '[', ']').value).Err? ==>
      r.graph == s.graph && r.error == ExpansionError + parse(ExtractFragment(reply.body, '[', ']').value).message
    ensures keySet ==>
      var e := Expand(s.graph, nodeKey, reply, parse, base, trig, pick, now);
      && (e.Err? ==> r.graph == s.graph && r.error == ExpansionError + e.message)
      && (e.Ok? ==> r.graph == e.value && r.error == s.error)
    ensures r.graph != s.graph ==>
      && keySet && r.error == s.error
      && (s.graph.order != [] ==> Root(r.graph) == Root(s.graph))
      && (forall k :: k in s.graph.nodes ==> k in r.graph.nodes)
      && (forall k :: k in s.graph.nodes && k != nodeKey ==> r.graph.nodes[k] == s.graph.nodes[k])
      && (forall k :: k in r.graph.nodes && k !in s.graph.nodes ==> NewLeaf(r.graph.nodes[k], nodeKey))
  {
    if !keySet then s.(error := MissingKey)
    else
      match Expand(s.graph, nodeKey, reply, parse, base, trig, pick, now)
      case Ok(g) => s.(graph := g, expanding := None)
      case Err(m) => s.(error := ExpansionError + m, expanding := None)
  }

  /** A successful expansion of a present node, seen from the component: the
      key order gains exactly the fresh suggestions, the node's children gain
      only the last of them, and the error line is left as it was. */
  lemma ExpandSessionExact(s: Session, nodeKey: string, reply: Reply,
                           parse: string -> Result<seq<string>>, base: real,
                           trig: real -> Vec, pick: nat -> nat, now: nat -> nat)
    requires Valid(s.graph) && nodeKey in s.graph.nodes
    requires reply.Text? && ExtractFragment(reply.body, '[', ']').Some?
    requires parse(ExtractFragment(reply.body, '[', ']').value).Ok?
    ensures var r := ExpandSession(s, nodeKey, true, reply, parse, base, trig, pick, now);
      var added := FreshOf(s.graph.nodes.Keys, UpperAll(parse(ExtractFragment(reply.body, '[', ']').value).value));
      && r.graph.order == s.graph.order + added
      && r.error == s.error && r.expanding.None?
      && (added == [] ==> r.graph == s.graph)
      && (added != [] ==> r.graph.nodes[nodeKey].children == s.graph.nodes[nodeKey].children + [Last(added)])
  {
    var concepts := parse(ExtractFragment(reply.body, '[', ']').value).value;
    MergeExact(s.graph, nodeKey, concepts, base, trig, pick, now);
  }

  // ---------------------------------------------------------------------------
  // Dragging

  /** `handleMouseDown`: remember the node and where inside it the cursor grabbed it. */
  function MouseDown(s: Session, k: string, client: Vec, rect: Rect): (r: Session)
    requires k in s.graph.nodes
    ensures r.dragged == Some(k)
    ensures s.graph.nodes[k].x + r.offset.x == client.x - rect.left
    ensures s.graph.nodes[k].y + r.offset.y == client.y - rect.top
    ensures r.(dragged := s.dragged, offset := s.offset) == s
  {
    var n := s.graph.nodes[k];
    s.(dragged := Some(k), offset := Vec(client.x - rect.left - n.x, client.y - rect.top - n.y))
  }

  /** What `{...undefined, x, y}` leaves when the dragged key is no longer in
      the map: a record with a position only. Its missing id and colour are
      written as "", which no lookup distinguishes from absent. */
  function Bare(x: real, y: real): Node {
    Node("", x, y, "", None, [])
  }

  /** The position `handleMouseMove` gives the dragged node: the cursor minus
      the grab offset, clamped to the canvas less the node size. */
  function DragTarget(s: Session, client: Vec, rect: Rect): (p: Vec)
    ensures 50.0 <= p.x && 25.0 <= p.y
    ensures 200.0 <= rect.width ==> p.x <= rect.width - 150.0
    ensures 100.0 <= rect.height ==> p.y <= rect.height - 75.0
    ensures 50.0 <= client.x - rect.left - s.offset.x <= rect.width - 150.0 ==> p.x == client.x - rect.left - s.offset.x
    ensures 25.0 <= client.y - rect.top - s.offset.y <= rect.height - 75.0 ==> p.y == client.y - rect.top - s.offset.y
  {
    Vec(Clamp(client.x - rect.left - s.offset.x, 50.0, rect.width - 150.0),
        Clamp(client.y - rect.top - s.offset.y, 25.0, rect.height - 75.0))
  }

  /** `handleMouseMove`: with no (truthy) dragged key nothing happens;
      otherwise only the dragged node's position changes. */
  function MouseMove(s: Session, client: Vec, rect: Rect): (r: Session)
    requires Valid(s.graph)
    ensures Valid(r.graph)
    ensures !Truthy(s.dragged) ==> r == s
    ensures r.(graph := s.graph) == s
    ensures Truthy(s.dragged) ==>
      var k := s.dragged.value;
      var p := DragTarget(s, client, rect);
      && k in r.graph.nodes && r.graph.nodes[k].x == p.x && r.graph.nodes[k].y == p.y
      && (forall j :: j in s.graph.nodes && j != k ==> j in r.graph.nodes && r.graph.nodes[j] == s.graph.nodes[j])
      && (forall j :: j in r.graph.nodes ==> j in s.graph.nodes || j == k)
    ensures Truthy(s.dragged) && s.dragged.value in s.graph.nodes ==>
      var k := s.dragged.value;
      && r.graph.order == s.graph.order
      && r.graph.nodes[k].(x := 0.0, y := 0.0) == s.graph.nodes[k].(x := 0.0, y := 0.0)
    ensures Truthy(s.dragged) && s.dragged.value !in s.graph.nodes ==>
      var k := s.dragged.value;
      && r.graph.order == s.graph.order + [k]
      && r.graph.nodes[k].parent.None? && r.graph.nodes[k].children == []
  {
    if !Truthy(s.dragged) then s
    else
      var k := s.dragged.value;
      var p := DragTarget(s, client, rect);
      var n := if k in s.graph.nodes then s.graph.nodes[k] else Bare(0.0, 0.0);
      s.(graph := Put(s.graph, k, n.(x := p.x, y := p.y)))
  }

  /** `handleMouseUp`: the drag ends and the offset is reset. */
  function MouseUp(s: Session): (r: Session)
    ensures r.dragged.None? && r.offset == Vec(0.0, 0.0)
    ensures r.(dragged := s.dragged, offset := s.offset) == s
  {
    s.(dragged := None, offset := Vec(0.0, 0.0))
  }

  /** Grabbing a node and moving the cursor by nothing leaves the node where
      it was, as long as it already lies inside the drag area. */
  lemma DragInPlace(s: Session, k: string, client: Vec, rect: Rect)
    requires Valid(s.graph) && k in s.graph.nodes && k != ""
    requires 50.0 <= s.graph.nodes[k].x <= rect.width - 150.0
    requires 25.0 <= s.graph.nodes[k].y <= rect.height - 75.0
    ensures MouseMove(MouseDown(s, k, client, rect), client, rect).graph == s.graph
  {
    var d := MouseDown(s, k, client, rect);
    var r := MouseMove(d, client, rect);
    var n := s.graph.nodes[k];
    assert DragTarget(d, client, rect) == Vec(n.x, n.y);
    assert r.graph.nodes[k] == n;
    assert r.graph.nodes == s.graph.nodes;
  }

  /** Once the button is released, moving the cursor changes nothing. */
  lemma MoveAfterUp(s: Session, client: Vec, rect: Rect)
    requires Valid(s.graph)
    ensures MouseMove(MouseUp(s), client, rect) == MouseUp(s)
  {
  }

  // ---------------------------------------------------------------------------
  // Clicking and deleting

  /** `handleNodeClick`: ignored while a drag is in progress; otherwise the
      node is selected and the chat panel opens empty. */
  function NodeClick(s: Session, k: string): (r: Session)
    ensures Truthy(s.dragged) ==> r == s
    ensures !Truthy(s.dragged) ==> r.selected == Some(k) && r.panelOpen && r.chat == [] && r.aiResponse == ""
    ensures r.(selected := s.selected, panelOpen := s.panelOpen, chat := s.chat, aiResponse := s.aiResponse) == s
  {
    if Truthy(s.dragged) then s
    else s.(selected := Some(k), panelOpen := true, chat := [], aiResponse := "")
  }

  /** Clicking the same node twice is clicking it once. */
  lemma NodeClickTwice(s: Session, k: string)
    ensures NodeClick(NodeClick(s, k), k) == NodeClick(s, k)
  {
  }

  /** `deleteNode(k)` on the session: the map changes as the store deletion
      says; if the deleted key was the selected one, the selection is cleared
      and the panel closed. The root, and a key that is not there (which
      throws before any state is set), leave everything as it was. */
  function DeleteInSession(s: Session, k: string, ghost rank: map<string, nat>): (r: Session)
    requires Valid(s.graph) && Ranked(s.graph.nodes, rank)
    ensures Valid(r.graph)
    ensures IsRoot(s.graph, k) || k !in s.graph.nodes ==> r == s
    ensures r.(graph := s.graph, selected := s.selected, panelOpen := s.panelOpen) == s
    ensures !IsRoot(s.graph, k) && k in s.graph.nodes ==>
      && (forall x :: x in r.graph.nodes <==> x in s.graph.nodes && x !in Subtree(s.graph.nodes, k, rank))
      && r.graph.order == Without(s.graph.order, Subtree(s.graph.nodes, k, rank))
      && (s.selected == Some(k) ==> r.selected.None? && !r.panelOpen)
      && (s.selected != Some(k) ==> r.selected == s.selected && r.panelOpen == s.panelOpen)
  {
    if IsRoot(s.graph, k) then s
    else
      match DeleteNode(s.graph, k, rank)
      case Err(_) => s
      case Ok(g) =>
        if s.selected == Some(k) then s.(graph := g, selected := None, panelOpen := false)
        else s.(graph := g)
  }

  /** The node's `onClick`: shift on a node other than the root deletes it,
      anything else is an ordinary click. */
  function Click(s: Session, k: string, shift: bool, ghost rank: map<string, nat>): (r: Session)
    requires Valid(s.graph) && Ranked(s.graph.nodes, rank)
    ensures Valid(r.graph)
    ensures shift && !IsRoot(s.graph, k) && k in s.graph.nodes ==>
      && k !in r.graph.nodes && r.selected != Some(k)
      && (forall x :: x in r.graph.nodes <==> x in s.graph.nodes && x !in Subtree(s.graph.nodes, k, rank))
      && r.graph.order == Without(s.graph.order, Subtree(s.graph.nodes, k, rank))
    ensures shift && !IsRoot(s.graph, k) && k !in s.graph.nodes ==> r == s
    ensures !shift || IsRoot(s.graph, k) ==>
      r.graph == s.graph && (!Truthy(s.dragged) ==> r.selected == Some(k) && r.panelOpen)
    ensures !shift || IsRoot(s.graph, k) ==> r == NodeClick(s, k)
    ensures r.dragged == s.dragged && r.expanding == s.expanding
  {
    if shift && !IsRoot(s.graph, k) then DeleteInSession(s, k, rank)
    else NodeClick(s, k)
  }

  /** The panel's expand button, disabled while the selected node is the one
      being expanded. The panel is only shown for a truthy selection. */
  function PanelExpand(s: Session, keySet: bool, reply: Reply,
                       parse: string -> Result<seq<string>>, base: real,
                       trig: real -> Vec, pick: nat -> nat, now: nat -> nat): (r: Session)
    requires Valid(s.graph) && s.panelOpen && Truthy(s.selected)
    ensures Valid(r.graph)
    ensures s.expanding == s.selected ==> r == s
    ensures s.expanding != s.selected && keySet ==> r.expanding.None?
    ensures s.expanding != s.selected && !keySet ==> r.graph == s.graph && r.error == MissingKey
    ensures s.expanding != s.selected && keySet ==>
      var e := Expand(s.graph, s.selected.value, reply, parse, base, trig, pick, now);
      && (e.Ok? ==> r.graph == e.value && r.error == s.error)
      && (e.Err? ==> r.graph == s.graph && r.error == ExpansionError + e.message)
    ensures r.selected == s.selected && r.panelOpen
  {
    if s.expanding == s.selected then s
    else ExpandSession(s, s.selected.value, keySet, reply, parse, base, trig, pick, now)
  }

  /** The panel's delete button, shown only when the selection is not the root:
      it deletes the selected node and, when that node exists, closes the panel. */
  function PanelDelete(s: Session, ghost rank: map<string, nat>): (r: Session)
    requires Valid(s.graph) && Ranked(s.graph.nodes, rank)
    requires s.panelOpen && Truthy(s.selected) && !IsRoot(s.graph, s.selected.value)
    ensures Valid(r.graph)
    ensures s.selected.value in s.graph.nodes ==>
      && r.selected.None? && !r.panelOpen && s.selected.value !in r.graph.nodes
      && (forall x :: x in r.graph.nodes <==> x in s.graph.nodes && x !in Subtree(s.graph.nodes, s.selected.value, rank))
      && r.graph.order == Without(s.graph.order, Subtree(s.graph.nodes, s.selected.value, rank))
    ensures s.selected.value !in s.graph.nodes ==> r == s
  {
    DeleteInSession(s, s.selected.value, rank)
  }
}

=== FILE: library.dfy ===
/** The saved-maps library page: searching the maps by title and tag,
    multi-selecting them, and deleting the selection after confirmation. */
module Library {
  import opened Seqs
  import opened Text

  /** One saved map as listed: `{id, title, date, nodes, excerpt}`. */
  datatype SavedMap = SavedMap(id: int, title: string, date: string, nodes: int, excerpt: seq<string>)

  datatype Shelf = Shelf(maps: seq<SavedMap>, selected: seq<int>, confirmDelete: bool)

  // ---------------------------------------------------------------------------
  // Search

  /** The title, or one of the tags, contains the query, all lower-cased. */
  predicate Matches(m: SavedMap, query: string) {
    || Contains(Lower(m.title), Lower(query))
    || exists i :: 0 <= i < |m.excerpt| && Contains(Lower(m.excerpt[i]), Lower(query))
  }

  function MatchesQuery(query: string): SavedMap -> bool {
    (m: SavedMap) => Matches(m, query)
  }

  /** `filtered`: the matching maps, in list order, each as often as listed. */
  function Filtered(maps: seq<SavedMap>, query: string): (r: seq<SavedMap>)
    ensures IsSubsequence(r, maps)
    ensures forall m :: multiset(r)[m] == if Matches(m, query) then multiset(maps)[m] else 0
  {
    FilterIsSubsequence(maps, MatchesQuery(query));
    FilterMultiset(maps, MatchesQuery(query));
    Filter(maps, MatchesQuery(query))
  }

  /** An empty search box lists every map. */
  lemma EmptyQueryKeepsAll(maps: seq<SavedMap>)
    ensures Filtered(maps, "") == maps
  {
    forall i | 0 <= i < |maps| ensures Matches(maps[i], "") {
      ContainsEmpty(Lower(maps[i].title));
    }
    FilterKeepsAll(maps, MatchesQuery(""));
  }

  /** The search ignores the case the query is typed in. */
  lemma QueryIgnoresCase(maps: seq<SavedMap>, query: string)
    ensures Filtered(maps, Upper(query)) == Filtered(maps, query)
    ensures Filtered(maps, Lower(query)) == Filtered(maps, query)
  {
    LowerCanonical(query);
    FilterSame(maps, MatchesQuery(Upper(query)), MatchesQuery(query));
    FilterSame(maps, MatchesQuery(Lower(query)), MatchesQuery(query));
  }

  // ---------------------------------------------------------------------------
  // Selection

  function Other(id: int): int -> bool {
    (i: int) => i != id
  }

  /** `toggleSelect(id)`: a selected id is dropped, any other is appended. */
  function Toggle(sel: seq<int>, id: int): (r: seq<int>)
    ensures id in r <==> id !in sel
    ensures forall x :: x != id ==> (x in r <==> x in sel)
    ensures id in sel ==> IsSubsequence(r, sel)
    ensures id !in sel ==> |r| == |sel| + 1 && r[..|sel|] == sel && r[|sel|] == id
    ensures NoDups(sel) ==> NoDups(r)
  {
    if id in sel then
      FilterIsSubsequence(sel, Other(id));
      assert NoDups(sel) ==> NoDups(Filter(sel, Other(id))) by {
        if NoDups(sel) {
          FilterNoDups(sel, Other(id));
        }
      }
      Filter(sel, Other(id))
    else
      assert NoDups(sel) ==> NoDups(sel + [id]) by {
        if NoDups(sel) {
          SnocNoDups(sel, id);
        }
      }
      assert (sel + [id])[..|sel|] == sel;
      sel + [id]
  }

  /** Toggling an unselected id twice gives the selection back. Toggling a
      selected id twice keeps the same ids but moves it to the end, so the
      list comes back unchanged exactly when the id was the last one. */
  lemma {:induction false} ToggleTwice(sel: seq<int>, id: int)
    ensures id !in sel ==> Toggle(Toggle(sel, id), id) == sel
    ensures forall x :: x in Toggle(Toggle(sel, id), id) <==> x in sel
    ensures NoDups(sel) && sel != [] && sel[|sel| - 1] == id ==> Toggle(Toggle(sel, id), id) == sel
  {
    if id !in sel {
      RemoveAppended(sel, id);
    }
    if NoDups(sel) && sel != [] && sel[|sel| - 1] == id {
      var p := sel[..|sel| - 1];
      assert sel == p + [id];
      assert id !in p by {
        forall j | 0 <= j < |p| ensures p[j] != id {
          assert p[j] == sel[j];
        }
      }
      RemoveAppended(p, id);
    }
  }

  /** Removing an id that was just appended to a list without it. */
  lemma RemoveAppended(sel: seq<int>, id: int)
    requires id !in sel
    ensures Filter(sel + [id], Other(id)) == sel
  {
    FilterAppend(sel, [id], Other(id));
    FilterKeepsAll(sel, Other(id));
    assert Filter([id], Other(id)) == [];
  }

  function NotIn(ids: seq<int>): SavedMap -> bool {
    (m: SavedMap) => m.id !in ids
  }

  /** `handleDelete`: the maps whose id is selected go, the rest stay in
      order; the selection is emptied and the dialog closed. */
  function DeleteSelected(s: Shelf): (r: Shelf)
    ensures IsSubsequence(r.maps, s.maps)
    ensures forall m :: multiset(r.maps)[m] == if m.id !in s.selected then multiset(s.maps)[m] else 0
    ensures r.selected == [] && !r.confirmDelete
  {
    FilterIsSubsequence(s.maps, NotIn(s.selected));
    FilterMultiset(s.maps, NotIn(s.selected));
    Shelf(Filter(s.maps, NotIn(s.selected)), [], false)
  }

  /** The dialog's question, "Delete n mind map(s)?". */
  function ConfirmText(count: nat): (r: string)
    ensures |r| >= 2 && r[|r| - 1] == '?'
    ensures r[|r| - 2] == 's' <==> count > 1
    ensures StartsWith(r, "Delete ")
    ensures var n := |NatToString(count)|;
      && 7 + n + 9 < |r| && IsDigits(r[7..7 + n]) && DigitsValue(r[7..7 + n]) == count
      && r[7 + n..7 + n + 9] == " mind map"
  {
    var r := "Delete " + NatToString(count) + " mind map" + (if count > 1 then "s" else "") + "?";
    var d := NatToString(count);
    assert r[..7] == "Delete ";
    assert r[7..7 + |d|] == d;
    assert r[7 + |d|..7 + |d| + 9] == " mind map";
    NatToStringRoundTrip(count);
    r
  }
}

=== FILE: render.dfy ===
/** The views derived from the node store: the connection lines drawn on the
    canvas (`drawConnections`, and the same rule in the image export) and the
    geometry, fill colour, label and file name of `downloadMindMap`. */
module Render {
  import opened Seqs
  import opened Text
  import opened Geometry
  import opened Store

  // ---------------------------------------------------------------------------
  // Connection lines

  /** One line from the parent's anchor to the child's anchor. */
  datatype Edge = Edge(parentKey: string, childKey: string, from: Vec, to: Vec)

  /** Where a line meets a node: `(x + 75, y + 37.5)`. */
  function Anchor(n: Node): Vec {
    Vec(n.x + 75.0, n.y + 37.5)
  }

  /** `node.parent && nodes[node.parent]`: the parent link is truthy and names
      a present node. */
  predicate HasEdge(g: Graph, k: string)
    requires k in g.nodes
  {
    HasParentLink(g.nodes[k]) && g.nodes[k].parent.value in g.nodes
  }

  /** `e` is the line drawn for its child. */
  predicate Connects(g: Graph, e: Edge) {
    && e.childKey in g.nodes && HasEdge(g, e.childKey)
    && e.parentKey == g.nodes[e.childKey].parent.value
    && e.from == Anchor(g.nodes[e.parentKey]) && e.to == Anchor(g.nodes[e.childKey])
  }

  /** The lines for the keys `ks`, visited in order. */
  function EdgesOf(g: Graph, ks: seq<string>): (r: seq<Edge>)
    requires forall k :: k in ks ==> k in g.nodes
    ensures |r| <= |ks|
    ensures forall e :: e in r ==> Connects(g, e) && e.childKey in ks
    ensures forall k :: k in ks && HasEdge(g, k) ==> exists e :: e in r && e.childKey == k
    decreases |ks|
  {
    if ks == [] then []
    else
      var k := ks[0];
      var rest := EdgesOf(g, ks[1..]);
      if HasEdge(g, k) then
        var n := g.nodes[k];
        var e := Edge(n.parent.value, k, Anchor(g.nodes[n.parent.value]), Anchor(n));
        assert e in [e] + rest;
        [e] + rest
      else rest
  }

  /** The lines of the whole map, in `Object.entries` order. */
  function Edges(g: Graph): (r: seq<Edge>)
    requires Valid(g)
    ensures forall e :: e in r ==> Connects(g, e)
    ensures forall k :: k in g.nodes && HasEdge(g, k) ==> exists e :: e in r && e.childKey == k
  {
    EdgesOf(g, g.order)
  }

  /** Visiting each key once draws at most one line per child. */
  lemma {:induction false} EdgesOfDistinct(g: Graph, ks: seq<string>)
    requires (forall k :: k in ks ==> k in g.nodes) && NoDups(ks)
    ensures forall i, j :: 0 <= i < j < |EdgesOf(g, ks)| ==> EdgesOf(g, ks)[i].childKey != EdgesOf(g, ks)[j].childKey
    decreases |ks|
  {
    if ks != [] {
      assert NoDups(ks[1..]) by {
        forall i, j | 0 <= i < j < |ks[1..]| ensures ks[1..][i] != ks[1..][j] {
          assert ks[1..][i] == ks[i + 1] && ks[1..][j] == ks[j + 1];
        }
      }
      EdgesOfDistinct(g, ks[1..]);
      var rest := EdgesOf(g, ks[1..]);
      if HasEdge(g, ks[0]) {
        forall j | 0 <= j < |rest| ensures rest[j].childKey != ks[0] {
          assert rest[j] in rest;
          var c := rest[j].childKey;
          assert c in ks[1..];
          var m :| 0 <= m < |ks[1..]| && ks[1..][m] == c;
          assert ks[m + 1] == c;
        }
      }
    }
  }

  /** The child keys of a list of lines. */
  function ChildKeys(es: seq<Edge>): (r: seq<string>)
    ensures |r| == |es|
    ensures forall i :: 0 <= i < |es| ==> r[i] == es[i].childKey
  {
    seq(|es|, i requires 0 <= i < |es| => es[i].childKey)
  }

  /** The children of the lines are exactly the nodes with a drawn parent link. */
  lemma EdgeChildren(g: Graph)
    requires Valid(g)
    ensures forall k :: k in ChildKeys(Edges(g)) <==> k in g.nodes && HasEdge(g, k)
  {
    var r := Edges(g);
    var cs := ChildKeys(r);
    forall k | k in g.nodes && HasEdge(g, k) ensures k in cs {
      var e :| e in r && e.childKey == k;
      var i :| 0 <= i < |r| && r[i] == e;
      assert cs[i] == k;
    }
    forall k | k in cs ensures k in g.nodes && HasEdge(g, k) {
      var i :| 0 <= i < |cs| && cs[i] == k;
      assert r[i] in r;
    }
  }

  /** There is exactly one line per node whose parent link is truthy and present. */
  lemma EdgeCount(g: Graph)
    requires Valid(g)
    ensures |Edges(g)| == |set k | k in g.nodes && HasEdge(g, k)|
  {
    var cs := ChildKeys(Edges(g));
    EdgesOfDistinct(g, g.order);
    NoDupsCard(cs);
    EdgeChildren(g);
    assert (set x | x in cs) == (set k | k in g.nodes && HasEdge(g, k));
  }

  /** When every parent link is mirrored in the parent's children, every line
      runs along a `children` entry, so the picture shows the tree the
      deletion walks. */
  lemma EdgesFollowChildren(g: Graph)
    requires Valid(g) && Linked(g)
    ensures forall e :: e in Edges(g) ==> e.parentKey in g.nodes && e.childKey in g.nodes[e.parentKey].children
  {
  }

  // ---------------------------------------------------------------------------
  // Image export

  /** Width and height of a node's box: the root is drawn larger. */
  function ExportBox(g: Graph, k: string): (wh: Vec)
    ensures wh == Vec(192.0, 80.0) || wh == Vec(144.0, 64.0)
  {
    if IsRoot(g, k) then Vec(192.0, 80.0) else Vec(144.0, 64.0)
  }

  /** Exactly one key of a non-empty map gets the large box: the first one. */
  lemma OneLargeBox(g: Graph)
    requires Valid(g) && g.order != []
    ensures (set k | k in g.nodes && ExportBox(g, k) == Vec(192.0, 80.0)) == {g.order[0]}
  {
  }

  /** Where a node's label is written: the centre of its box. */
  function LabelCentre(g: Graph, k: string): (c: Vec)
    requires k in g.nodes
    ensures g.nodes[k].x < c.x < g.nodes[k].x + ExportBox(g, k).x
    ensures g.nodes[k].y < c.y < g.nodes[k].y + ExportBox(g, k).y
    ensures c.x - g.nodes[k].x == g.nodes[k].x + ExportBox(g, k).x - c.x
  {
    var wh := ExportBox(g, k);
    Vec(g.nodes[k].x + wh.x / 2.0, g.nodes[k].y + wh.y / 2.0)
  }

  const DefaultFill: string := "#d1d5db"

  /** The export's table from colour classes to fill colours. */
  const ColorMap: map<string, string> := map[
    "bg-pink-500" := "#ec4899",
    "bg-green-400" := "#4ade80",
    "bg-blue-500" := "#3b82f6",
    "bg-yellow-400" := "#facc15",
    "bg-purple-400" := "#c084fc",
    "bg-orange-400" := "#fb923c",
    "bg-red-400" := "#f87171",
    "bg-gray-300" := "#d1d5db"
  ]

  /** `colorMap[node.color] || '#d1d5db'`. */
  function FillColor(color: string): (r: string)
    ensures r in ColorMap.Values
    ensures color in ColorMap ==> r == ColorMap[color]
    ensures color !in ColorMap ==> r == DefaultFill
  {
    assert ColorMap["bg-gray-300"] == DefaultFill;
    if color in ColorMap then ColorMap[color] else DefaultFill
  }

  /** Of the twelve colours nodes are given, only the first seven have a fill
      of their own in the export; the other five come out grey. */
  lemma PaletteFill()
    ensures forall i :: 0 <= i < |NodeColors| ==> (FillColor(NodeColors[i]) == DefaultFill <==> 7 <= i)
  {
    forall i | 0 <= i < |NodeColors| ensures FillColor(NodeColors[i]) == DefaultFill <==> 7 <= i {
      if i < 7 {
        assert NodeColors[i] in ColorMap;
      } else {
        assert NodeColors[i] !in ColorMap;
      }
    }
  }

  /** The text drawn in a node: keys longer than twenty characters are cut. */
  function Label(key: string): (r: string)
    ensures |r| <= 23
    ensures |key| <= 20 ==> r == key
    ensures |key| > 20 ==> r == key[..20] + "..."
  {
    Truncate(key, 20)
  }

  /** Short keys have labels of their own; long keys share a label exactly
      when their first twenty characters agree. */
  lemma LabelCollisions(a: string, b: string)
    ensures |a| <= 20 ==> (Label(a) == Label(b) <==> a == b)
    ensures |a| > 20 && |b| > 20 ==> (Label(a) == Label(b) <==> a[..20] == b[..20])
  {
    if |a| > 20 && |b| > 20 && Label(a) == Label(b) {
      assert Label(a)[..20] == a[..20] && Label(b)[..20] == b[..20];
    }
  }

  /** `${mindMapName.replace(/\s+/g, '_').toLowerCase()}.png`. */
  function FileName(mapName: string): (r: string)
    ensures |r| >= 4 && r[|r| - 4..] == ".png"
    ensures NoSpace(r)
    ensures forall i :: 0 <= i < |r| ==> !('A' <= r[i] <= 'Z')
    ensures |r| <= |mapName| + 4
    ensures NoSpace(mapName) ==> r == Lower(mapName) + ".png"
  {
    var stem := Lower(ReplaceSpaceRuns(mapName));
    LowerNoSpace(ReplaceSpaceRuns(mapName));
    assert NoSpace(mapName) ==> ReplaceSpaceRuns(mapName) == mapName by {
      if NoSpace(mapName) {
        ReplaceSpaceRunsNoSpace(mapName);
      }
    }
    stem + ".png"
  }

  /** In a file name a run of white space between two words reads exactly as
      an underscore typed in its place. */
  lemma FileNameRun(w: string, run: string, rest: string)
    requires run != [] && AllSpace(run)
    requires w == [] || !IsJsSpace(w[|w| - 1])
    requires rest == [] || !IsJsSpace(rest[0])
    ensures FileName(w + run + rest) == FileName(w + "_" + rest)
  {
    assert ReplaceSpaceRuns(w + run + rest) == ReplaceSpaceRuns(w + "_" + rest) by {
      ReplaceSpaceRunsCollapse(w, run, rest);
      assert !IsJsSpace('_');
      var u := w + "_";
      assert u[|u| - 1] == '_';
      ReplaceSpaceRunsAppend(u, rest);
      ReplaceSpaceRunsAppend(w, "_");
      ReplaceSpaceRunsNoSpace("_");
    }
  }
}

=== FILE: seqs.dfy ===
/** Sequence helpers with the meaning of the JavaScript array methods the
    components use (`filter`, `includes`, spreading into a new array). */
module Seqs {

  /** No element occurs twice. */
  predicate NoDups<T(==)>(s: seq<T>) {
    forall i, j :: 0 <= i < j < |s| ==> s[i] != s[j]
  }

  /** `Array.prototype.filter`: the elements satisfying `keep`, in their original order. */
  function Filter<T>(s: seq<T>, keep: T -> bool): (r: seq<T>)
    ensures |r| <= |s|
    ensures forall i :: 0 <= i < |r| ==> r[i] in s && keep(r[i])
    ensures forall i :: 0 <= i < |s| && keep(s[i]) ==> s[i] in r
  {
    if s == [] then [] else (if keep(s[0]) then [s[0]] else []) + Filter(s[1..], keep)
  }

  /** `r` is obtained from `s` by deleting elements, without reordering the rest. */
  predicate IsSubsequence<T(==)>(r: seq<T>, s: seq<T>)
    decreases |s|
  {
    if r == [] then true
    else if s == [] then false
    else if r[0] == s[0] then IsSubsequence(r[1..], s[1..])
    else IsSubsequence(r, s[1..])
  }

  /** Filtering keeps the surviving elements in their original relative order. */
  lemma {:induction false} FilterIsSubsequence<T>(s: seq<T>, keep: T -> bool)
    ensures IsSubsequence(Filter(s, keep), s)
    decreases |s|
  {
    if s != [] {
      FilterIsSubsequence(s[1..], keep);
      if keep(s[0]) {
        assert ([s[0]] + Filter(s[1..], keep))[1..] == Filter(s[1..], keep);
      } else {
        assert Filter(s, keep) == Filter(s[1..], keep);
        SubsequenceOfTail(Filter(s[1..], keep), s);
      }
    }
  }

  /** A subsequence of the tail is a subsequence of the whole sequence. */
  lemma {:induction false} SubsequenceOfTail<T>(r: seq<T>, s: seq<T>)
    requires s != []
    requires IsSubsequence(r, s[1..])
    ensures IsSubsequence(r, s)
    decreases |s|, |r|, 1
  {
    if r != [] && r[0] == s[0] {
      // Matching r[0] against s[0] leaves r[1..] to find in s[1..], which
      // holds because r itself is found in s[1..].
      SubsequenceDropHead(r, s[1..]);
    }
  }

  /** Dropping the first element of a subsequence keeps it a subsequence. */
  lemma {:induction false} SubsequenceDropHead<T>(r: seq<T>, s: seq<T>)
    requires r != []
    requires IsSubsequence(r, s)
    ensures IsSubsequence(r[1..], s)
    decreases |s|, |r|, 2
  {
    if s != [] {
      if r[0] == s[0] {
        if r[1..] != [] {
          SubsequenceOfTail(r[1..], s);
        }
      } else {
        SubsequenceDropHead(r, s[1..]);
        if r[1..] != [] {
          SubsequenceOfTail(r[1..], s);
        }
      }
    }
  }

  /** Filtering keeps every passing element as often as it occurs and drops
      every other element entirely. */
  lemma {:induction false} FilterMultiset<T>(s: seq<T>, keep: T -> bool)
    ensures forall x :: multiset(Filter(s, keep))[x] == if keep(x) then multiset(s)[x] else 0
    decreases |s|
  {
    if s != [] {
      FilterMultiset(s[1..], keep);
      assert s == [s[0]] + s[1..];
      assert multiset(s) == multiset([s[0]]) + multiset(s[1..]);
      var t := Filter(s[1..], keep);
      if keep(s[0]) {
        assert multiset([s[0]] + t) == multiset([s[0]]) + multiset(t);
      } else {
        assert Filter(s, keep) == t;
      }
    }
  }

  /** Filtering a concatenation filters each part. */
  lemma {:induction false} FilterAppend<T>(a: seq<T>, b: seq<T>, keep: T -> bool)
    ensures Filter(a + b, keep) == Filter(a, keep) + Filter(b, keep)
    decreases |a|
  {
    if a == [] {
      assert a + b == b;
    } else {
      assert (a + b)[0] == a[0] && (a + b)[1..] == a[1..] + b;
      FilterAppend(a[1..], b, keep);
    }
  }

  /** Filters that agree on every element select the same elements. */
  lemma {:induction false} FilterSame<T>(s: seq<T>, f: T -> bool, g: T -> bool)
    requires forall x :: f(x) == g(x)
    ensures Filter(s, f) == Filter(s, g)
    decreases |s|
  {
    if s != [] {
      FilterSame(s[1..], f, g);
    }
  }

  /** A filter that every element passes returns the sequence unchanged. */
  lemma {:induction false} FilterKeepsAll<T>(s: seq<T>, keep: T -> bool)
    requires forall i :: 0 <= i < |s| ==> keep(s[i])
    ensures Filter(s, keep) == s
    decreases |s|
  {
    if s != [] {
      FilterKeepsAll(s[1..], keep);
    }
  }

  /** Filtering a duplicate-free sequence leaves it duplicate-free. */
  lemma {:induction false} FilterNoDups<T>(s: seq<T>, keep: T -> bool)
    requires NoDups(s)
    ensures NoDups(Filter(s, keep))
    decreases |s|
  {
    if s != [] {
      assert NoDups(s[1..]) by {
        forall i, j | 0 <= i < j < |s[1..]| ensures s[1..][i] != s[1..][j] {
          assert s[1..][i] == s[i + 1] && s[1..][j] == s[j + 1];
        }
      }
      FilterNoDups(s[1..], keep);
      var t := Filter(s[1..], keep);
      if keep(s[0]) {
        assert s[0] !in s[1..] by {
          forall j | 0 <= j < |s[1..]| ensures s[1..][j] != s[0] {
            assert s[1..][j] == s[j + 1];
          }
        }
        ConsNoDups(s[0], t);
      }
    }
  }

  /** Prepending an element that is not in a duplicate-free sequence keeps it duplicate-free. */
  lemma ConsNoDups<T>(x: T, t: seq<T>)
    requires NoDups(t) && x !in t
    ensures NoDups([x] + t)
  {
    var u := [x] + t;
    forall i, j | 0 <= i < j < |u| ensures u[i] != u[j] {
      assert u[j] == t[j - 1];
      if i > 0 {
        assert u[i] == t[i - 1];
      }
    }
  }

  /** Appending an element that is not in a duplicate-free sequence keeps it duplicate-free. */
  lemma SnocNoDups<T>(t: seq<T>, x: T)
    requires NoDups(t) && x !in t
    ensures NoDups(t + [x])
  {
    var u := t + [x];
    forall i, j | 0 <= i < j < |u| ensures u[i] != u[j] {
      assert u[i] == t[i];
      if j < |t| {
        assert u[j] == t[j];
      }
    }
  }

  /** A duplicate-free sequence has as many distinct elements as entries. */
  lemma {:induction false} NoDupsCard<T>(s: seq<T>)
    requires NoDups(s)
    ensures |set x | x in s| == |s|
    decreases |s|
  {
    if s != [] {
      assert NoDups(s[1..]) by {
        forall i, j | 0 <= i < j < |s[1..]| ensures s[1..][i] != s[1..][j] {
          assert s[1..][i] == s[i + 1] && s[1..][j] == s[j + 1];
        }
      }
      NoDupsCard(s[1..]);
      assert (set x | x in s) == {s[0]} + (set x | x in s[1..]);
      assert s[0] !in (set x | x in s[1..]) by {
        forall j | 0 <= j < |s[1..]| ensures s[1..][j] != s[0] {
          assert s[1..][j] == s[j + 1];
        }
      }
    }
  }

  /** The two halves of a duplicate-free concatenation are duplicate-free and disjoint. */
  lemma NoDupsAppend<T>(a: seq<T>, b: seq<T>)
    requires NoDups(a + b)
    ensures NoDups(a) && NoDups(b)
    ensures forall x :: x in a ==> x !in b
  {
    var u := a + b;
    forall i, j | 0 <= i < j < |a| ensures a[i] != a[j] {
      assert a[i] == u[i] && a[j] == u[j];
    }
    forall i, j | 0 <= i < j < |b| ensures b[i] != b[j] {
      assert b[i] == u[|a| + i] && b[j] == u[|a| + j];
    }
    forall x | x in a ensures x !in b {
      var i :| 0 <= i < |a| && a[i] == x;
      assert u[i] == x;
      forall j | 0 <= j < |b| ensures b[j] != x {
        assert b[j] == u[|a| + j];
      }
    }
  }

  /** Moving the head of a duplicate-free suffix onto the prefix keeps it
      duplicate-free, and the head was not in the prefix. */
  lemma NoDupsShift<T>(o: seq<T>, x: T, a: seq<T>, b: seq<T>)
    requires NoDups(o + ([x] + a + b))
    ensures x !in o
    ensures NoDups(o + [x] + a) && NoDups(o + [x] + a + b)
  {
    assert o + ([x] + a + b) == o + [x] + a + b;
    NoDupsAppend(o, [x] + a + b);
    assert x in [x] + a + b;
    NoDupsAppend(o + [x] + a, b);
  }

  /** Appending the elements of `ks` to `o` one at a time, none is present yet. */
  predicate Fresh<T(==)>(o: seq<T>, ks: seq<T>)
    decreases |ks|
  {
    ks == [] || (ks[0] !in o && Fresh(o + [ks[0]], ks[1..]))
  }

  /** Freshness of a concatenation is freshness of its halves, in turn. */
  lemma {:induction false} FreshAppend<T>(o: seq<T>, a: seq<T>, b: seq<T>)
    ensures Fresh(o, a + b) <==> Fresh(o, a) && Fresh(o + a, b)
    decreases |a|
  {
    if a == [] {
      assert a + b == b;
      assert o + a == o;
    } else {
      assert (a + b)[0] == a[0];
      assert (a + b)[1..] == a[1..] + b;
      FreshAppend(o + [a[0]], a[1..], b);
      assert o + [a[0]] + a[1..] == o + a;
    }
  }

  /** A duplicate-free concatenation appends a fresh suffix. */
  lemma {:induction false} NoDupsFresh<T>(o: seq<T>, ks: seq<T>)
    requires NoDups(o + ks)
    ensures Fresh(o, ks)
    decreases |ks|
  {
    if ks != [] {
      assert o + ([ks[0]] + [] + ks[1..]) == o + ks;
      NoDupsShift(o, ks[0], [], ks[1..]);
      assert o + [ks[0]] + [] + ks[1..] == o + [ks[0]] + ks[1..];
      NoDupsFresh(o + [ks[0]], ks[1..]);
    }
  }

  lemma SeqAssoc<T>(a: seq<T>, b: seq<T>, c: seq<T>)
    ensures a + b + c == a + (b + c)
  {
  }

  /** A non-empty suffix is its first element followed by the next suffix. */
  lemma SliceCons<T>(s: seq<T>, j: nat)
    requires j < |s|
    ensures s[j..] == [s[j]] + s[j + 1..]
    ensures s[j..][0] == s[j] && s[j..][1..] == s[j + 1..]
  {
  }
}

=== FILE: store.dfy ===
/** The node store of the mind-map generator: a JavaScript object from
    upper-cased concept keys to node records. Objects remember the order in
    which string keys were first inserted, and the component treats the first
    key as the root, so the model keeps that order explicitly. */
module Store {
  import opened Base
  import opened Seqs

  /** One concept: `{id, x, y, color, parent?, children?}`. An absent `children`
      field behaves as `[]` everywhere it is read (`children || []`,
      `if (parent.children)`), so it is modelled as the empty list. */
  datatype Node = Node(id: string, x: real, y: real, color: string, parent: Option<string>, children: seq<string>)

  /** The `nodes` object: its keys in insertion order and the record under each key. */
  datatype Graph = Graph(order: seq<string>, nodes: map<string, Node>)

  /** The key order lists every key of the object exactly once. */
  predicate Valid(g: Graph) {
    && NoDups(g.order)
    && (forall k :: k in g.order ==> k in g.nodes)
    && (forall k :: k in g.nodes ==> k in g.order)
  }

  const Empty: Graph := Graph([], map[])

  /** `Object.keys(nodes)[0]`: the key inserted first, absent for an empty object. */
  function Root(g: Graph): Option<string> {
    if g.order == [] then None else Some(g.order[0])
  }

  predicate IsRoot(g: Graph, k: string) {
    Root(g) == Some(k)
  }

  /** JavaScript truthiness of `node.parent`: present and not the empty string. */
  predicate HasParentLink(n: Node) {
    n.parent.Some? && n.parent.value != ""
  }

  /** The colour classes `getRandomColor` chooses from in the generator. */
  const NodeColors: seq<string> := [
    "bg-pink-500", "bg-green-400", "bg-blue-500", "bg-yellow-400",
    "bg-purple-400", "bg-orange-400", "bg-red-400", "bg-cyan-400",
    "bg-indigo-400", "bg-lime-400", "bg-rose-400", "bg-emerald-400"
  ]

  /** `colors[Math.floor(Math.random() * colors.length)]`, with the random index
      supplied by the caller (reduced into range). */
  function PickColor(pick: nat): (c: string)
    ensures c in NodeColors
  {
    NodeColors[pick % |NodeColors|]
  }

  /** Every parent link is mirrored by the parent listing the node as a child,
      so walking `children` from a node reaches everything that points to it. */
  predicate Linked(g: Graph) {
    forall k :: k in g.nodes && g.nodes[k].parent.Some? ==>
      g.nodes[k].parent.value in g.nodes && k in g.nodes[g.nodes[k].parent.value].children
  }

  /** A duplicate-free order has exactly as many entries as the object has keys. */
  lemma ValidSize(g: Graph)
    requires Valid(g)
    ensures |g.nodes| == |g.order|
  {
    NoDupsCard(g.order);
    assert g.nodes.Keys == set x | x in g.order;
  }

  /** `nodes[k] = n`: an existing key keeps its place in the order, a new key goes last. */
  function Put(g: Graph, k: string, n: Node): (r: Graph)
    requires Valid(g)
    ensures Valid(r)
    ensures r.nodes == g.nodes[k := n]
    ensures k in g.nodes ==> r.order == g.order
    ensures k !in g.nodes ==> r.order == g.order + [k]
  {
    if k in g.nodes then Graph(g.order, g.nodes[k := n])
    else
      SnocNoDups(g.order, k);
      Graph(g.order + [k], g.nodes[k := n])
  }

  /** The keys of `o` outside `d`, in order: `o.filter(x => !d.has(x))`. */
  function Without(o: seq<string>, d: set<string>): (r: seq<string>)
    ensures |r| <= |o|
    ensures forall x :: x in r <==> x in o && x !in d
  {
    if o == [] then [] else (if o[0] in d then [] else [o[0]]) + Without(o[1..], d)
  }

  lemma {:induction false} WithoutNoDups(o: seq<string>, d: set<string>)
    requires NoDups(o)
    ensures NoDups(Without(o, d))
    decreases |o|
  {
    if o != [] {
      assert NoDups(o[1..]) by {
        forall i, j | 0 <= i < j < |o[1..]| ensures o[1..][i] != o[1..][j] {
          assert o[1..][i] == o[i + 1] && o[1..][j] == o[j + 1];
        }
      }
      WithoutNoDups(o[1..], d);
      if o[0] !in d {
        assert o[0] !in o[1..] by {
          forall j | 0 <= j < |o[1..]| ensures o[1..][j] != o[0] {
            assert o[1..][j] == o[j + 1];
          }
        }
        ConsNoDups(o[0], Without(o[1..], d));
      }
    }
  }

  /** Removing in two rounds is removing the union once. */
  lemma {:induction false} WithoutTwice(o: seq<string>, a: set<string>, b: set<string>)
    ensures Without(Without(o, a), b) == Without(o, a + b)
    decreases |o|
  {
    if o != [] {
      WithoutTwice(o[1..], a, b);
      if o[0] in a {
        assert Without(o, a) == Without(o[1..], a);
      } else {
        assert Without(o, a) == [o[0]] + Without(o[1..], a);
        assert Without(o, a)[1..] == Without(o[1..], a);
      }
    }
  }

  /** Removing keys that do not occur leaves the order as it is. */
  lemma {:induction false} WithoutNothing(o: seq<string>, d: set<string>)
    requires forall i :: 0 <= i < |o| ==> o[i] !in d
    ensures Without(o, d) == o
    decreases |o|
  {
    if o != [] {
      WithoutNothing(o[1..], d);
    }
  }

  /** Every key in `d` deleted from the object (`delete nodes[k]` for each). */
  function Prune(g: Graph, d: set<string>): (r: Graph)
    requires Valid(g)
    ensures Valid(r)
  {
    WithoutNoDups(g.order, d);
    Graph(Without(g.order, d), g.nodes - d)
  }

  lemma PruneTwice(g: Graph, a: set<string>, b: set<string>)
    requires Valid(g)
    ensures Prune(Prune(g, a), b) == Prune(g, a + b)
  {
    WithoutTwice(g.order, a, b);
    assert (g.nodes - a) - b == g.nodes - (a + b);
  }

  lemma PruneNothing(g: Graph)
    requires Valid(g)
    ensures Prune(g, {}) == g
  {
    WithoutNothing(g.order, {});
    assert g.nodes - {} == g.nodes;
  }

  /** `delete nodes[k]`. */
  function Remove(g: Graph, k: string): (r: Graph)
    requires Valid(g)
    ensures Valid(r)
  {
    Prune(g, {k})
  }
}

=== FILE: text.dfy ===
/** The JavaScript string operations the components rely on, on `seq<char>`.
    Case conversion is modelled on ASCII letters only. */
module Text {

  /** The characters matched by JavaScript's `\s` and removed by
      `String.prototype.trim`: the ECMAScript WhiteSpace and LineTerminator
      code points (tab to carriage return, space, no-break space, the Unicode
      space separators, line and paragraph separator, byte order mark). */
  predicate IsJsSpace(c: char) {
    || c == ' ' || '\t' <= c <= '\r' || c == '\U{A0}' || c == '\U{1680}'
    || '\U{2000}' <= c <= '\U{200A}' || c == '\U{2028}' || c == '\U{2029}'
    || c == '\U{202F}' || c == '\U{205F}' || c == '\U{3000}' || c == '\U{FEFF}'
  }

  predicate AllSpace(s: string) {
    forall i :: 0 <= i < |s| ==> IsJsSpace(s[i])
  }

  predicate NoSpace(s: string) {
    forall i :: 0 <= i < |s| ==> !IsJsSpace(s[i])
  }

  // ---------------------------------------------------------------------------
  // Case conversion (ASCII)

  function UpperChar(c: char): char {
    if 'a' <= c <= 'z' then (c as int - 32) as char else c
  }

  function LowerChar(c: char): char {
    if 'A' <= c <= 'Z' then (c as int + 32) as char else c
  }

  /** `String.prototype.toUpperCase`, restricted to ASCII letters. */
  function Upper(s: string): (r: string)
    ensures |r| == |s|
    ensures forall i :: 0 <= i < |s| ==> !('a' <= r[i] <= 'z')
  {
    seq(|s|, i requires 0 <= i < |s| => UpperChar(s[i]))
  }

  /** `String.prototype.toLowerCase`, restricted to ASCII letters. */
  function Lower(s: string): (r: string)
    ensures |r| == |s|
    ensures forall i :: 0 <= i < |s| ==> !('A' <= r[i] <= 'Z')
  {
    seq(|s|, i requires 0 <= i < |s| => LowerChar(s[i]))
  }

  /** Changing the case of ASCII letters never creates or removes white space. */
  lemma LowerNoSpace(s: string)
    requires NoSpace(s)
    ensures NoSpace(Lower(s))
  {
    forall i | 0 <= i < |s| ensures !IsJsSpace(Lower(s)[i]) {
      if 'A' <= s[i] <= 'Z' {
        assert 'a' <= Lower(s)[i] <= 'z';
      }
    }
  }

  /** Upper-casing is the canonical key: spellings that differ only in case
      collide, and an upper-cased key is its own key. */
  lemma UpperCanonical(s: string)
    ensures Upper(Upper(s)) == Upper(s)
    ensures Upper(Lower(s)) == Upper(s)
  {
  }

  /** Lower-casing forgets the case a string was written in. */
  lemma LowerCanonical(s: string)
    ensures Lower(Lower(s)) == Lower(s)
    ensures Lower(Upper(s)) == Lower(s)
  {
  }

  // ---------------------------------------------------------------------------
  // Searching

  predicate StartsWith(s: string, prefix: string) {
    |prefix| <= |s| && s[..|prefix|] == prefix
  }

  /** `String.prototype.includes`, scanning the start positions left to right. */
  predicate Contains(s: string, sub: string)
    decreases |s|
  {
    StartsWith(s, sub) || (s != [] && Contains(s[1..], sub))
  }

  /** `sub` occurs in `s` starting at position `i`. */
  predicate OccursAt(s: string, sub: string, i: nat) {
    i + |sub| <= |s| && s[i..i + |sub|] == sub
  }

  /** `includes` holds exactly when `sub` occurs as a contiguous piece of `s`. */
  lemma {:induction false} ContainsIffInfix(s: string, sub: string)
    ensures Contains(s, sub) <==> exists i: nat :: OccursAt(s, sub, i)
    decreases |s|
  {
    if StartsWith(s, sub) {
      assert OccursAt(s, sub, 0);
    }
    if s != [] {
      ContainsIffInfix(s[1..], sub);
      if Contains(s[1..], sub) {
        var i: nat :| OccursAt(s[1..], sub, i);
        assert s[1..][i..i + |sub|] == s[i + 1..i + 1 + |sub|];
        assert OccursAt(s, sub, i + 1);
      }
      if i: nat :| OccursAt(s, sub, i) {
        if i > 0 {
          assert s[1..][i - 1..i - 1 + |sub|] == s[i..i + |sub|];
          assert OccursAt(s[1..], sub, i - 1);
        }
      }
    }
  }

  /** The empty string is included in every string. */
  lemma ContainsEmpty(s: string)
    ensures Contains(s, "")
  {
  }

  /** Index of the first occurrence of `c`. */
  function IndexOf(s: string, c: char): (i: nat)
    requires c in s
    ensures i < |s| && s[i] == c
    ensures forall k :: 0 <= k < i ==> s[k] != c
  {
    if s[0] == c then 0 else 1 + IndexOf(s[1..], c)
  }

  // ---------------------------------------------------------------------------
  // Trimming

  /** Leading white space removed. */
  function TrimStart(s: string): (r: string)
    ensures |r| <= |s| && r == s[|s| - |r|..]
    ensures AllSpace(s[..|s| - |r|])
    ensures r == [] || !IsJsSpace(r[0])
  {
    if s != [] && IsJsSpace(s[0]) then
      var r := TrimStart(s[1..]);
      var cut := s[..|s| - |r|];
      assert AllSpace(cut) by {
        forall i | 0 <= i < |cut| ensures IsJsSpace(cut[i]) {
          if 0 < i {
            assert cut[i] == s[1..][..|s[1..]| - |r|][i - 1];
          }
        }
      }
      r
    else s
  }

  /** Trailing white space removed. */
  function TrimEnd(s: string): (r: string)
    ensures |r| <= |s| && r == s[..|r|]
    ensures AllSpace(s[|r|..])
    ensures r == [] || !IsJsSpace(r[|r| - 1])
  {
    if s != [] && IsJsSpace(s[|s| - 1]) then
      var r := TrimEnd(s[..|s| - 1]);
      var cut := s[|r|..];
      assert AllSpace(cut) by {
        forall i | 0 <= i < |cut| ensures IsJsSpace(cut[i]) {
          if i < |cut| - 1 {
            assert cut[i] == s[..|s| - 1][|r|..][i];
          }
        }
      }
      r
    else s
  }

  /** `String.prototype.trim`: a contiguous piece of `s` with only white space
      cut away on either side, and no white space at either end. */
  function Trim(s: string): (r: string)
    ensures exists i, j :: 0 <= i <= j <= |s| && r == s[i..j] && AllSpace(s[..i]) && AllSpace(s[j..])
    ensures r == [] || (!IsJsSpace(r[0]) && !IsJsSpace(r[|r| - 1]))
  {
    var a := TrimStart(s);
    var r := TrimEnd(a);
    TrimBothEnds(s, a, r);
    r
  }

  /** Trimming the end of a string whose start is already trimmed. */
  lemma TrimBothEnds(s: string, a: string, r: string)
    requires |a| <= |s| && a == s[|s| - |a|..] && AllSpace(s[..|s| - |a|]) && (a == [] || !IsJsSpace(a[0]))
    requires |r| <= |a| && r == a[..|r|] && AllSpace(a[|r|..]) && (r == [] || !IsJsSpace(r[|r| - 1]))
    ensures exists i, j :: 0 <= i <= j <= |s| && r == s[i..j] && AllSpace(s[..i]) && AllSpace(s[j..])
    ensures r == [] || (!IsJsSpace(r[0]) && !IsJsSpace(r[|r| - 1]))
  {
    var i := |s| - |a|;
    var j := i + |r|;
    assert r == s[i..j];
    assert s[j..] == a[|r|..];
    assert r != [] ==> r[0] == a[0];
  }

  /** A string trims to empty exactly when it is all white space: the guard
      `!x.trim()` rejects blank input and nothing else. */
  lemma TrimEmptyIffBlank(s: string)
    ensures Trim(s) == [] <==> AllSpace(s)
  {
    var r := Trim(s);
    var i, j :| 0 <= i <= j <= |s| && r == s[i..j] && AllSpace(s[..i]) && AllSpace(s[j..]);
    if r == [] {
      forall k | 0 <= k < |s| ensures IsJsSpace(s[k]) {
        if k < i {
          assert s[..i][k] == s[k];
        } else {
          assert s[j..][k - j] == s[k];
        }
      }
    }
  }

  // ---------------------------------------------------------------------------
  // Splitting on one separator character

  /** `String.prototype.split(sep)` for a one-character separator: the pieces
      between separators, empty pieces included. */
  function Split(s: string, sep: char): (pieces: seq<string>)
    ensures |pieces| >= 1
    ensures forall i :: 0 <= i < |pieces| ==> sep !in pieces[i]
    decreases |s|
  {
    if sep in s then
      var i := IndexOf(s, sep);
      [s[..i]] + Split(s[i + 1..], sep)
    else [s]
  }

  /** `Array.prototype.join(sep)`. */
  function Join(pieces: seq<string>, sep: char): string
    requires |pieces| >= 1
  {
    if |pieces| == 1 then pieces[0] else pieces[0] + [sep] + Join(pieces[1..], sep)
  }

  /** Splitting loses nothing: joining the pieces back gives the original. */
  lemma {:induction false} JoinSplit(s: string, sep: char)
    ensures Join(Split(s, sep), sep) == s
    decreases |s|
  {
    if sep in s {
      var i := IndexOf(s, sep);
      JoinSplit(s[i + 1..], sep);
      var pieces := Split(s, sep);
      assert pieces[1..] == Split(s[i + 1..], sep);
      assert s == s[..i] + [sep] + s[i + 1..];
    }
  }

  /** The first piece runs up to the first separator, or to the end when there
      is none; a second piece exists exactly when there is a separator, and the
      rest are the pieces of what follows it. */
  lemma SplitFirst(s: string, sep: char)
    ensures var p := Split(s, sep);
      && (|p| >= 2 <==> sep in s)
      && |p[0]| <= |s| && p[0] == s[..|p[0]|]
      && (|p[0]| == |s| || s[|p[0]|] == sep)
      && (|p| >= 2 ==> |p[0]| < |s| && p[1..] == Split(s[|p[0]| + 1..], sep))
  {
  }

  /** A prefix `a`, a separator and a prefix `b` of what follows open `s`
      together. */
  lemma PrefixThenPrefix(s: string, a: string, sep: char, b: string)
    requires |a| < |s| && s[..|a|] == a && s[|a|] == sep
    requires |b| <= |s| - |a| - 1 && s[|a| + 1..][..|b|] == b
    ensures s[..|a| + 1 + |b|] == a + [sep] + b
  {
    var n := |a| + 1 + |b|;
    assert s[|a| + 1..n] == s[|a| + 1..][..|b|];
    assert s[..n] == s[..|a|] + [s[|a|]] + s[|a| + 1..n];
  }

  /** With a separator present, the first two pieces and the separator
      between them open the string, and the next character, if any, is again
      the separator. */
  lemma SplitTwo(s: string, sep: char)
    requires sep in s
    ensures var p := Split(s, sep);
      var n := |p[0]| + 1 + |p[1]|;
      && |p| >= 2 && n <= |s| && s[..n] == p[0] + [sep] + p[1]
      && (n == |s| || s[n] == sep)
  {
    var p := Split(s, sep);
    var a := p[0];
    assert |p| >= 2 && |a| < |s| && s[..|a|] == a && s[|a|] == sep
      && p[1..] == Split(s[|a| + 1..], sep) by {
      SplitFirst(s, sep);
    }
    var rest := s[|a| + 1..];
    var b := p[1];
    assert b == Split(rest, sep)[0] by {
      assert p[1..][0] == p[1];
    }
    assert |b| <= |rest| && rest[..|b|] == b && (|b| == |rest| || rest[|b|] == sep) by {
      SplitFirst(rest, sep);
    }
    PrefixThenPrefix(s, a, sep, b);
  }

  /** Joining the first `k` pieces gives a prefix of joining them all. */
  lemma {:induction false} JoinTake(pieces: seq<string>, k: nat, sep: char)
    requires 1 <= k <= |pieces|
    ensures StartsWith(Join(pieces, sep), Join(pieces[..k], sep))
    decreases k
  {
    var whole := Join(pieces, sep);
    if k == 1 {
      assert pieces[..1][0] == pieces[0];
      if |pieces| > 1 {
        assert whole[..|pieces[0]|] == pieces[0];
      }
    } else {
      var tail := pieces[1..];
      JoinTake(tail, k - 1, sep);
      assert pieces[..k][1..] == tail[..k - 1];
      var head := pieces[0] + [sep];
      var part := Join(tail[..k - 1], sep);
      assert Join(pieces[..k], sep) == head + part;
      assert whole == head + Join(tail, sep);
      assert whole[..|head| + |part|] == head + Join(tail, sep)[..|part|];
    }
  }

  /** The first one or two pieces: there are two exactly when the separator
      occurs, they open the string, one piece alone is the whole string, and
      two end at the next separator or at the end. */
  lemma SplitHead(s: string, sep: char)
    ensures var p := Split(s, sep);
      var h := p[..if |p| < 2 then |p| else 2];
      && 1 <= |h| <= 2
      && (|h| == 2 <==> sep in s)
      && StartsWith(s, Join(h, sep))
      && (|h| == 1 ==> h[0] == s)
      && (|h| == 2 ==>
            var n := |h[0]| + 1 + |h[1]|;
            && n <= |s| && s[..n] == h[0] + [sep] + h[1]
            && (n == |s| || s[n] == sep))
  {
    var p := Split(s, sep);
    var k := if |p| < 2 then |p| else 2;
    var h := p[..k];
    assert StartsWith(s, Join(h, sep)) by {
      JoinTake(p, k, sep);
      JoinSplit(s, sep);
    }
    assert (|p| >= 2 <==> sep in s) && (|p| < 2 ==> p[0] == s) by {
      SplitFirst(s, sep);
    }
    if k == 2 {
      assert h[0] == p[0] && h[1] == p[1];
      SplitTwo(s, sep);
    } else {
      assert h[0] == p[0];
    }
  }

  // ---------------------------------------------------------------------------
  // Display helpers

  /** The label shown for a long string: its first `n` characters and "...". */
  function Truncate(s: string, n: nat): (r: string)
    ensures |s| <= n ==> r == s
    ensures |s| > n ==> |r| == n + 3 && r[..n] == s[..n] && r[n..] == "..."
  {
    if |s| > n then s[..n] + "..." else s
  }

  /** A shortened string is not shortened further. */
  lemma TruncateIdempotent(s: string, n: nat)
    ensures Truncate(Truncate(s, n), n) == Truncate(s, n)
  {
    if |s| > n {
      var t := Truncate(s, n);
      assert t[..n] == s[..n];
    }
  }

  /** `s.replace(/\s+/g, '_')`: every maximal run of white space becomes one underscore. */
  function ReplaceSpaceRuns(s: string): (r: string)
    ensures |r| <= |s|
    ensures NoSpace(r)
    decreases |s|
  {
    if s == [] then []
    else if IsJsSpace(s[0]) then "_" + ReplaceSpaceRuns(TrimStart(s))
    else [s[0]] + ReplaceSpaceRuns(s[1..])
  }

  /** A string without white space is left alone. */
  lemma {:induction false} ReplaceSpaceRunsNoSpace(s: string)
    requires NoSpace(s)
    ensures ReplaceSpaceRuns(s) == s
    decreases |s|
  {
    if s != [] {
      ReplaceSpaceRunsNoSpace(s[1..]);
    }
  }

  /** One run of white space between two pieces collapses to a single underscore. */
  lemma {:induction false} ReplaceSpaceRunsCollapse(w: string, run: string, rest: string)
    requires run != [] && AllSpace(run)
    requires w == [] || !IsJsSpace(w[|w| - 1])
    requires rest == [] || !IsJsSpace(rest[0])
    ensures ReplaceSpaceRuns(w + run + rest) == ReplaceSpaceRuns(w) + "_" + ReplaceSpaceRuns(rest)
  {
    var t := run + rest;
    var x, y := ReplaceSpaceRuns(w), ReplaceSpaceRuns(rest);
    CollapseLeadingRun(run, rest);
    Regroup(w, run, rest);
    ReplaceSpaceRunsAppend(w, t);
    Regroup(x, "_", y);
  }

  /** Concatenation regrouped, stated once so that proofs about rewritten
      strings need not redo it. */
  lemma Regroup(a: string, b: string, c: string)
    ensures a + b + c == a + (b + c)
  {
  }

  /** Text that ends in a non-space character is rewritten independently of what follows it. */
  lemma {:induction false} ReplaceSpaceRunsAppend(x: string, t: string)
    requires x == [] || !IsJsSpace(x[|x| - 1])
    ensures ReplaceSpaceRuns(x + t) == ReplaceSpaceRuns(x) + ReplaceSpaceRuns(t)
    decreases |x|
  {
    if x == [] {
      assert x + t == t;
    } else if IsJsSpace(x[0]) {
      var x' := TrimStart(x);
      TrimStartAppend(x, t);
      ReplaceSpaceRunsAppend(x', t);
      CollapseAfterLeadingSpace(x, t);
      Regroup("_", ReplaceSpaceRuns(x'), ReplaceSpaceRuns(t));
    } else {
      ReplaceSpaceRunsAppend(x[1..], t);
      CollapseAfterWordChar(x, t);
      Regroup([x[0]], ReplaceSpaceRuns(x[1..]), ReplaceSpaceRuns(t));
    }
  }

  /** A string that starts with a white-space run becomes "_" followed by the rest. */
  lemma CollapseLeadingRun(run: string, rest: string)
    requires run != [] && AllSpace(run)
    requires rest == [] || !IsJsSpace(rest[0])
    ensures ReplaceSpaceRuns(run + rest) == "_" + ReplaceSpaceRuns(rest)
  {
    TrimStartOfRun(run, rest);
    assert (run + rest)[0] == run[0];
  }

  /** Unfolding `ReplaceSpaceRuns` at a leading non-space character of `w + t`. */
  lemma CollapseAfterWordChar(w: string, t: string)
    requires w != [] && !IsJsSpace(w[0])
    ensures ReplaceSpaceRuns(w + t) == [w[0]] + ReplaceSpaceRuns(w[1..] + t)
    ensures ReplaceSpaceRuns(w) == [w[0]] + ReplaceSpaceRuns(w[1..])
  {
    assert (w + t)[0] == w[0];
    assert (w + t)[1..] == w[1..] + t;
  }

  /** Unfolding `ReplaceSpaceRuns` at a leading white-space character of `w + t`. */
  lemma CollapseAfterLeadingSpace(w: string, t: string)
    requires w != [] && IsJsSpace(w[0]) && !IsJsSpace(w[|w| - 1])
    requires TrimStart(w + t) == TrimStart(w) + t
    ensures ReplaceSpaceRuns(w + t) == "_" + ReplaceSpaceRuns(TrimStart(w) + t)
    ensures ReplaceSpaceRuns(w) == "_" + ReplaceSpaceRuns(TrimStart(w))
  {
    assert (w + t)[0] == w[0];
  }

  /** Leading white space of a string that ends in a non-space character stays
      within that string. */
  lemma {:induction false} TrimStartAppend(w: string, t: string)
    requires w != [] && !IsJsSpace(w[|w| - 1])
    ensures TrimStart(w + t) == TrimStart(w) + t
    ensures TrimStart(w) != [] && TrimStart(w)[|TrimStart(w)| - 1] == w[|w| - 1]
    decreases |w|
  {
    if IsJsSpace(w[0]) {
      assert (w + t)[1..] == w[1..] + t;
      TrimStartAppend(w[1..], t);
    }
  }

  /** Trimming a white-space run off the front of `run + rest` yields `rest`. */
  lemma {:induction false} TrimStartOfRun(run: string, rest: string)
    requires AllSpace(run)
    requires rest == [] || !IsJsSpace(rest[0])
    ensures TrimStart(run + rest) == rest
    decreases |run|
  {
    if run != [] {
      assert (run + rest)[1..] == run[1..] + rest;
      TrimStartOfRun(run[1..], rest);
    } else {
      assert run + rest == rest;
    }
  }

  // ---------------------------------------------------------------------------
  // Decimal rendering of numbers

  function DigitChar(d: nat): char
    requires d < 10
  {
    "0123456789"[d]
  }

  predicate IsDigits(s: string) {
    forall i :: 0 <= i < |s| ==> '0' <= s[i] <= '9'
  }

  /** A non-negative integer in a template literal: its decimal digits. */
  function NatToString(n: nat): (r: string)
    ensures r != [] && IsDigits(r)
  {
    if n < 10 then [DigitChar(n)] else NatToString(n / 10) + [DigitChar(n % 10)]
  }

  /** The number a string of decimal digits denotes. */
  function DigitsValue(s: string): nat
    requires IsDigits(s)
  {
    if s == [] then 0 else 10 * DigitsValue(s[..|s| - 1]) + (s[|s| - 1] as int - '0' as int)
  }

  /** The decimal rendering reads back as the same number. */
  lemma {:induction false} NatToStringRoundTrip(n: nat)
    ensures DigitsValue(NatToString(n)) == n
  {
    if n >= 10 {
      NatToStringRoundTrip(n / 10);
      var s := NatToString(n);
      assert s[..|s| - 1] == NatToString(n / 10);
    }
  }
}

=== FILE: workspace.dfy ===
/** The flow-chart workspace: a list of nodes and a list of edges handed over
    by the page that opened it, a selected node, and the two list updates of
    its side panel (delete the selected node, expand a node with two ideas). */
module Workspace {
  import opened Base
  import opened Seqs
  import opened Geometry

  datatype FlowNode = FlowNode(id: string, text: string, position: Vec)

  datatype FlowEdge = FlowEdge(id: string, source: string, target: string)

  /** The component's state: node and edge lists, the node object last
      clicked, the expanding flag and the error line. */
  datatype Flow = Flow(nodes: seq<FlowNode>, edges: seq<FlowEdge>, selected: Option<FlowNode>,
                       expanding: bool, error: string)

  /** `nodes.filter(n => n.id !== id)`. */
  function DropNode(nodes: seq<FlowNode>, id: string): (r: seq<FlowNode>)
    ensures forall n :: multiset(r)[n] == if n.id != id then multiset(nodes)[n] else 0
    ensures IsSubsequence(r, nodes)
  {
    var keep := (n: FlowNode) => n.id != id;
    FilterMultiset(nodes, keep);
    FilterIsSubsequence(nodes, keep);
    Filter(nodes, keep)
  }

  /** `edges.filter(e => e.source !== id && e.target !== id)`. */
  function DropEdgesAt(edges: seq<FlowEdge>, id: string): (r: seq<FlowEdge>)
    ensures forall e :: multiset(r)[e] == if e.source != id && e.target != id then multiset(edges)[e] else 0
    ensures IsSubsequence(r, edges)
  {
    var keep := (e: FlowEdge) => e.source != id && e.target != id;
    FilterMultiset(edges, keep);
    FilterIsSubsequence(edges, keep);
    Filter(edges, keep)
  }

  /** `handleDeleteNode`: with a selection other than "root", drop the nodes
      with the selected id and every edge that starts or ends there, then clear
      the selection. Nodes further down are not touched. */
  function DeleteSelected(w: Flow): (r: Flow)
    ensures w.selected.None? || w.selected.value.id == "root" ==> r == w
    ensures w.selected.Some? && w.selected.value.id != "root" ==>
      var id := w.selected.value.id;
      && r.selected.None? && r.expanding == w.expanding && r.error == w.error
      && (forall n :: multiset(r.nodes)[n] == if n.id != id then multiset(w.nodes)[n] else 0)
      && (forall e :: multiset(r.edges)[e] == if e.source != id && e.target != id then multiset(w.edges)[e] else 0)
      && IsSubsequence(r.nodes, w.nodes) && IsSubsequence(r.edges, w.edges)
  {
    match w.selected
    case None => w
    case Some(sel) =>
      if sel.id == "root" then w
      else Flow(DropNode(w.nodes, sel.id), DropEdgesAt(w.edges, sel.id), None, w.expanding, w.error)
  }

  /** Deleting a node keeps every other node, including the ones its edges
      pointed to, and leaves no edge touching the deleted id. */
  lemma DeleteKeepsOthers(w: Flow)
    requires w.selected.Some? && w.selected.value.id != "root"
    ensures forall n :: n in w.nodes && n.id != w.selected.value.id ==> n in DeleteSelected(w).nodes
    ensures forall n :: n in DeleteSelected(w).nodes ==> n.id != w.selected.value.id
    ensures forall e :: e in DeleteSelected(w).edges ==> e.source != w.selected.value.id && e.target != w.selected.value.id
  {
    var r := DeleteSelected(w);
    var id := w.selected.value.id;
    forall n | n in w.nodes && n.id != id ensures n in r.nodes {
      assert multiset(r.nodes)[n] == multiset(w.nodes)[n];
    }
    forall n | n in r.nodes ensures n.id != id {
      assert multiset(r.nodes)[n] > 0;
    }
    forall e | e in r.edges ensures e.source != id && e.target != id {
      assert multiset(r.edges)[e] > 0;
    }
  }

  /** The id of an idea node: the expanded node's id, a letter, and a short
      random hexadecimal tail. */
  function IdeaId(parent: string, letter: char, tail: string): (id: string)
    ensures |id| == |parent| + 3 + |tail|
    ensures id[..|parent|] == parent && id[|parent| + 1] == letter
  {
    parent + ['-', letter, '-'] + tail
  }

  /** `handleExpandNode(node)`: two idea nodes, one 120 to the right labelled
      "Idea for …" and one 120 to the left labelled "Inspire from …", each
      joined to `node` by a new edge. `tailA`/`tailB` are the random id tails
      and `u1`/`u2` the two `Math.random()` values for the vertical jitter.
      The flag is cleared at the end, and nothing in the `try` can throw. */
  function ExpandNode(w: Flow, node: FlowNode, tailA: string, tailB: string, u1: real, u2: real): (r: Flow)
    requires 0.0 <= u1 < 1.0 && 0.0 <= u2 < 1.0
    ensures |r.nodes| == |w.nodes| + 2 && r.nodes[..|w.nodes|] == w.nodes
    ensures |r.edges| == |w.edges| + 2 && r.edges[..|w.edges|] == w.edges
    ensures var a := r.nodes[|w.nodes|];
            var b := r.nodes[|w.nodes| + 1];
      && a.id != b.id
      && a.text == "Idea for " + node.text && b.text == "Inspire from " + node.text
      && a.position.x == node.position.x + 120.0 && b.position.x == node.position.x - 120.0
      && node.position.y - 60.0 <= a.position.y < node.position.y + 60.0
      && node.position.y - 60.0 <= b.position.y < node.position.y + 60.0
      && r.edges[|w.edges|].source == node.id && r.edges[|w.edges|].target == a.id
      && r.edges[|w.edges| + 1].source == node.id && r.edges[|w.edges| + 1].target == b.id
    ensures !r.expanding && r.error == "" && r.selected == w.selected
  {
    var idA := IdeaId(node.id, 'a', tailA);
    var idB := IdeaId(node.id, 'b', tailB);
    var a := FlowNode(idA, "Idea for " + node.text, Vec(node.position.x + 120.0, node.position.y + u1 * 120.0 - 60.0));
    var b := FlowNode(idB, "Inspire from " + node.text, Vec(node.position.x - 120.0, node.position.y + u2 * 120.0 - 60.0));
    assert idA[|node.id| + 1] != idB[|node.id| + 1];
    Flow(w.nodes + [a, b],
         w.edges + [FlowEdge("e" + node.id + "-" + idA, node.id, idA), FlowEdge("e" + node.id + "-" + idB, node.id, idB)],
         w.selected, false, "")
  }

  /** The panel's expand button: it is shown for a selection and disabled
      while an expansion is running. */
  function ExpandSelected(w: Flow, tailA: string, tailB: string, u1: real, u2: real): (r: Flow)
    requires w.selected.Some?
    requires 0.0 <= u1 < 1.0 && 0.0 <= u2 < 1.0
    ensures w.expanding ==> r == w
    ensures !w.expanding ==> !r.expanding && r.error == ""
    ensures |r.nodes| == if w.expanding then |w.nodes| else |w.nodes| + 2
    ensures !w.expanding ==> r == ExpandNode(w, w.selected.value, tailA, tailB, u1, u2)
    ensures !w.expanding ==>
      && r.nodes[..|w.nodes|] == w.nodes && r.edges[..|w.edges|] == w.edges && |r.edges| == |w.edges| + 2
      && r.nodes[|w.nodes|].text == "Idea for " + w.selected.value.text
      && r.nodes[|w.nodes| + 1].text == "Inspire from " + w.selected.value.text
      && r.edges[|w.edges|].source == w.selected.value.id && r.edges[|w.edges|].target == r.nodes[|w.nodes|].id
      && r.edges[|w.edges| + 1].source == w.selected.value.id && r.edges[|w.edges| + 1].target == r.nodes[|w.nodes| + 1].id
  {
    if w.expanding then w else ExpandNode(w, w.selected.value, tailA, tailB, u1, u2)
  }

  /** An expansion followed by deleting the expanded node (when selected and
      not "root") leaves both idea nodes in place, cut off from the rest. */
  lemma ExpandThenDeleteOrphans(w: Flow, tailA: string, tailB: string, u1: real, u2: real)
    requires w.selected.Some? && w.selected.value.id != "root" && !w.expanding
    requires 0.0 <= u1 < 1.0 && 0.0 <= u2 < 1.0
    ensures var x := ExpandSelected(w, tailA, tailB, u1, u2);
            var r := DeleteSelected(x);
      && x.nodes[|w.nodes|] in r.nodes && x.nodes[|w.nodes| + 1] in r.nodes
      && (forall e :: e in r.edges ==> e.source != w.selected.value.id)
  {
    var x := ExpandSelected(w, tailA, tailB, u1, u2);
    var id := w.selected.value.id;
    var a := x.nodes[|w.nodes|];
    var b := x.nodes[|w.nodes| + 1];
    assert a.id[..|id|] == id && |a.id| > |id|;
    assert b.id[..|id|] == id && |b.id| > |id|;
    assert a.id != id && b.id != id;
    assert a in x.nodes && b in x.nodes;
    DeleteKeepsOthers(x);
  }
}
